=== FILE: README.md ===
# Pishock-Cyberpunk-2077 middleware core, in Dafny

This project models the Python middleware that sits between Cyberpunk 2077 and
a PiShock device. Game events arrive signed. The middleware checks each
signature and decides whether the event becomes a device command. It then
either logs the command (dry run) or sends it to PiShock's legacy HTTP API.

The modules follow the source files:

- `Policy` (`middleware/policy.py`) is the safety gate.
  - `Resolve` holds the rules, in source order: the mapping-table lookup, the defaults, the two-factor shock gate, the damage-proportional intensity and the hard caps.
  - `Decision` adds the per-`(event_type, target)` cooldown.
  - `PolicyEngine` is a class whose `Decide` method updates the cooldown map in place. It is proved equal to `Decision`.
  - `PolicyFacts` holds the lemmas about these, including lemmas about runs of several calls (`Run`).
- `Security` (`middleware/security.py`) is the signature check. The HMAC-SHA256 hex digest is a function parameter, `Digest`.
- `Config` (`middleware/config.py`) holds the configuration records and the defaults that `load_config` applies to the parsed YAML document.
- `FileIngest` (`middleware/file_ingest.py`) is the outbox-line pipeline.
  - `ProcessLine` is a module-level method that takes the engine and modifies its cooldown map. It is proved equal to the step function `ProcessLineSpec`.
  - The module also has the offset store's load and save, and `OffsetRoundTrip`, the lemma that loading what was saved gives the offset back.
  - `IngestFacts` holds the lemmas about `ProcessLineSpec`: which lines are skipped, and what a correctly signed line leads to.
- `SetupWizard` (`middleware/setup_wizard.py`) covers:
  - the prompt default rule;
  - the clamp on the session's maximum shock level;
  - the starter profile;
  - the YAML renderer. `EmitYaml` is a loop method proved against `DocumentLines`.
- `PiShockHttp` (`middleware/pishock_http.py`) maps a mode to its operation code and builds the payload. The HTTP request itself is a function parameter, `Dispatch`.
- Shared support:
  - `Values` holds the dynamically typed JSON/YAML values and the Python operations applied to them: truthiness, `get`, subscripting, `int()` and `float()`.
  - `PyText` holds `str.strip()`, `str(n)` and `int(text)`.
  - `Wrappers` holds `Option` and `Result`.

Python exceptions are values:

- `PyError` covers `KeyError`, `TypeError`, `ValueError`, `AttributeError` and `OverflowError`.
- `decide`'s outcome is `Result<Action, DecideError>`. `DecideError` is a `PolicyError`, a `CooldownError`, or a Python exception that escapes (`Raised`).
- `_process_line` ends in a `LineOutcome`: `Handled(flag)` when it returns, or `Propagated(error)` when an exception escapes it.

The clock reading `decide` takes (`time.time()`) is the parameter `nowMs`.

### Where the code and the design description differ (the model follows the code)

- **Load errors.** The design says a bad configuration fails with a `ConfigError`. The code has no such class. Loading fails with whatever Python raises: `KeyError` for a missing section or secret, `TypeError` for a bad `pishock` section, `ValueError`/`TypeError` from `int()`, and `AttributeError` when `service` is not a mapping.
- **No validation of values.** The design says every numeric field is positive and `session_max_shock_level` is in [1, 100]. `load_config` checks neither, and neither does the model. Only the setup wizard clamps the level.
- **Armed by truthiness.** The design says `armed` must be exactly `true`. The code tests `event.get("armed", False)` by truthiness, so `1` or `"yes"` also arm an event.
- **Mode not checked at load.** A mapping's `mode` is not checked when the configuration is loaded.
  - An approved action with an unknown mode in live mode makes `send_pishock_http` raise `ValueError`.
  - That error escapes `_process_line` after the cooldown state has already been written (`Settle`, `Propagated`).
- **Secret types.** A shared secret that is not text makes the signature check raise `AttributeError`, which escapes `_process_line`.
- **Non-ASCII signatures.** `hmac.compare_digest` raises `TypeError` for a non-ASCII signature. Nothing catches it, so it escapes `_process_line` too.
- **Escaping `decide` errors.** Only `KeyError`, `TypeError` and `ValueError` are caught inside `decide` and `_process_line`; any other exception escapes.
  - An `AttributeError` arises when the mapping table or one of its entries is not a dict.
  - An `OverflowError` arises when a damage shock's `damage`, `max_health` or session level is an integer too large for a double.
- **No lock.** The design asks for atomic per-key cooldown check-and-set under concurrent callers. The code has no lock. `Decide` is modelled as a sequential method, and the model claims no atomicity.

## Model

| member | source | states |
|---|---|---|
| Values.Subscript | middleware/policy.py:53-54 | `v[key]` succeeds exactly on a dict holding the key, with its value; a missing key is `KeyError(key)`, a non-dict `TypeError` |
| Values.Truncate | middleware/policy.py:70-71 | `int()` of a float rounds toward zero: the result is within one of `x`, on the side of zero |
| Values.ToInt | middleware/policy.py:70-71 | `int(v)`: ints pass through, bools give 0/1, floats are truncated toward zero, text succeeds exactly when it is base-10 integer text (else `ValueError`), `None`/lists/dicts raise `TypeError` |
| Values.Get | middleware/policy.py:69-72 | `d.get(key, default)` is the key's value when the key is present and the default otherwise |
| Values.Truthy | middleware/policy.py:66 | `None` is false, a bool is itself, ints and floats are true exactly when nonzero, and text, lists and dicts are true exactly when non-empty |
| Values.ToFloat | middleware/policy.py:53-54 | `float(v)`: floats are read exactly; bools give 1.0/0.0; an int is read exactly when it fits a double and raises `OverflowError` when its magnitude reaches 2^1024 - 2^970; `None`/lists/dicts raise `TypeError`; text succeeds exactly when it is base-10 integer text, else `ValueError` |
| PyText.Strip | middleware/file_ingest.py:26 | the result is the slice of the text between its leading and trailing whitespace runs: it starts and ends with no whitespace, everything cut off is whitespace, text without edge whitespace is unchanged, and it is empty exactly when the text is all whitespace |
| PyText.StripIdempotent | middleware/file_ingest.py:26 | stripping twice is stripping once |
| PyText.IntToText | middleware/file_ingest.py:33 | `str(n)` is non-empty, ends in a digit and holds no whitespace or newline |
| PyText.NatToTextValue | middleware/file_ingest.py:33 | the digits `str(n)` writes for `n >= 0` have the value `n` |
| PyText.ParseDigits | middleware/file_ingest.py:26 | `int()` reads a run of digits as its decimal value |
| PyText.ParseIntIgnoresStrip | middleware/file_ingest.py:26 | `int()` strips its argument itself, so stripping first changes nothing |
| PyText.ParseInt | middleware/file_ingest.py:26 | `int()` of blank text fails |
| PyText.ParseStripped | middleware/file_ingest.py:26 | empty text and a bare sign fail; a parsed number is never positive after a `-` and never negative otherwise |
| PyText.ParseIntToText | middleware/file_ingest.py:22-33 | `int(str(n)) == n` for every integer, negative ones included |
| Config.Credentials | middleware/config.py:14-22 | `PiShockCredentials(**section)` succeeds exactly when the section is a dict whose keys include username/apikey/code and are among the four fields; `name` defaults to "CyberpunkBridge"; otherwise `TypeError` |
| Config.IntField | middleware/config.py:62-69 | `int(service.get(key, default))`: the default when the key is absent, otherwise `int()` of the document's value, with its error |
| Config.LoadConfig | middleware/config.py:57-72 | loading succeeds exactly when the document is a dict whose `pishock` section the credentials accept, whose `service` section is a dict holding `shared_secret`, and whose numeric service fields are absent or read by `int()`. Failures come in source order: a non-dict document is a `TypeError`, a missing `pishock` a `KeyError`, refused credentials a `TypeError`, a missing `service` a `KeyError`, a non-dict `service` an `AttributeError`, a refused `bind_port` its `int()` error, then a missing secret `KeyError("shared_secret")`. A loaded config holds the document's secret and credentials |
| Config.MinimalConfigDefaults | middleware/config.py:57-72 | a document with only the required fields loads with bind 127.0.0.1:8787, dry run on, shock off, caps 20 and 2000 ms, cooldown 1500 ms, session level 100, name "CyberpunkBridge" and an empty mapping table |
| Config.FieldsDefaultOrOverride | middleware/config.py:61-71 | each service field is the document's value (through `int()` or truthiness) when present and its documented default when absent; an absent `event_mappings` is the empty table |
| Config.NonIntegerFieldFails | middleware/config.py:62-69 | a numeric field that `int()` refuses makes loading fail |
| Config.MissingSecretFails | middleware/config.py:63 | without `service.shared_secret` loading fails: it has no default. Once the sections and `bind_port` have been read, the error is `KeyError("shared_secret")` |
| Policy.Clamp | middleware/policy.py:88-89 | `min(max(lo, x), hi)` is at most `hi`, at least `lo` when `lo <= hi`, and is `x` itself, `lo` or `hi` in the three ranges |
| Policy.ClampUnit | middleware/policy.py:58 | the damage ratio clamp lands in [0, 1] and keeps values already there |
| Policy.RoundHalfEven | middleware/policy.py:59 | Python's `round`: within one half of `x`, and even on a tie |
| Policy.DamageShare | middleware/policy.py:52-58 | the clamped share is in [0, 1]: 0 for no damage, 1 at or beyond the health pool, and exactly `damage / max_health` in between |
| Policy.ScaledIntensity | middleware/policy.py:59 | the rounded product is in [0, level], within one half of `share * level`, and even when it lies exactly half way (round half to even) |
| Policy.DamageScaledShockIntensity | middleware/policy.py:42-59 | a non-dict context is a `TypeError`; a missing `damage` or `max_health` is a `KeyError` naming it, checked in that order; a value `float()` refuses gives that error; `max_health <= 0` is the `PolicyError` for non-positive health; a session level too large for a double is an `OverflowError`; otherwise the result is the session level scaled by the clamped share `damage / max_health`, in [0, session level] |
| Policy.Armed | middleware/policy.py:75 | `event.get("armed", False)` by truthiness: unarmed without the key, else the truthiness of its value |
| Policy.Context | middleware/policy.py:52 | `event.get("context") or {}`: the context when it is truthy, else the empty dict |
| Policy.Unmapped | middleware/policy.py:64-67 | for a text event type: unmapped when the table lacks it or maps it to an empty dict, and mapped when it maps to a non-empty dict |
| Policy.CoolingDown | middleware/policy.py:94-95 | a key never approved is not cooling down; one approved at or before now is not cooling down under a non-positive cooldown; one approved less than a cooldown ago is |
| Policy.DamageOverride | middleware/policy.py:78-85 | the damage path succeeds with the scaled intensity exactly when the computation does; a `KeyError`, `TypeError` or `ValueError` becomes the `PolicyError` for an invalid context; a policy error passes through; any other exception (an `OverflowError` from a value beyond the double range) escapes unchanged |
| Policy.Resolve | middleware/policy.py:64-91 | never a `CooldownError`; `PolicyError(NoMapping)` exactly for unmapped or empty-mapped event types; approved intensity and duration lie within the caps (and above 1 and 100 when the caps allow); the key is `(event_type, target)`; an approved shock needs `allow_shock` and `armed` |
| Policy.Decision | middleware/policy.py:91-99 | approval exactly when the rules pass and the key is not cooling down; a `CooldownError` exactly when the rules pass and it is; a rejection leaves the cooldown map unchanged; an approval returns the resolved action and records `now` at its key only |
| Policy.PolicyEngine.constructor | middleware/policy.py:37-40 | a new engine keeps its config and starts with no cooldown entries |
| Policy.PolicyEngine.Decide | middleware/policy.py:61-99 | outcome and new cooldown map are those of `Decision`; nothing changes on rejection; on approval only `(event_type, target)` is set to `nowMs` |
| PolicyFacts.ShockNeedsBothFactors | middleware/policy.py:74-76 | a shock mapping is refused as disabled exactly when `allow_shock` or `armed` is missing: both factors are needed |
| PolicyFacts.MissingFieldsTakeDefaults | middleware/policy.py:69-91 | a mapping without fields resolves to mode "beep", intensity 1 and 300 ms (capped), the configured device code as target and the service's default cooldown |
| PolicyFacts.ApprovedFieldsComeFromMapping | middleware/policy.py:69-91 | an approved action carries the mapping's mode, target, capped duration and cooldown, and its capped intensity unless it is a damage shock, which carries the capped scaled intensity |
| PolicyFacts.DamageShockNeedsContext | middleware/policy.py:78-85 | a damage shock whose event has no context is a `PolicyError` for invalid context |
| PolicyFacts.DamageShockNeedsPositiveMaxHealth | middleware/policy.py:52-56 | for any event whose context is a dict holding `damage` and `max_health` that `float()` reads, a damage shock with `max_health <= 0` is the `PolicyError` for non-positive health |
| PolicyFacts.DamageShockNeedsDamageField | middleware/policy.py:52-53 | a damage shock whose dict context has no `damage` raises `KeyError("damage")`, which `decide` turns into the `PolicyError` for invalid context |
| PolicyFacts.HugeDamageEscapes | middleware/policy.py:53-54 | a damage shock whose `damage` is an int beyond the double range raises `OverflowError` from `float()`, and `decide` lets it escape instead of turning it into a `PolicyError` |
| PolicyFacts.FullDamageGivesSessionLevel | middleware/policy.py:58-59 | damage at or beyond the health pool scales to the whole session level |
| PolicyFacts.NoDamageGivesZero | middleware/policy.py:58-59 | no (or negative) damage scales to 0 before the caps |
| PolicyFacts.RoundHalfEvenMonotone | middleware/policy.py:59 | rounding half to even never reverses an order |
| PolicyFacts.DamageShareMonotone | middleware/policy.py:58 | more damage is never a smaller share |
| PolicyFacts.ScaledIntensityMonotone | middleware/policy.py:59 | a larger share never scales to a smaller intensity |
| PolicyFacts.MoreDamageNeverWeaker | middleware/policy.py:42-59 | more damage against the same health pool never gives a weaker shock |
| PolicyFacts.QuarterDamageExample | middleware/policy.py:42-59 | 100 damage of 400 health at level 100 gives 25, approved as shock 25 for 500 ms, and as 20 under a cap of 20 |
| PolicyFacts.QuarterDamageResolves | middleware/policy.py:69-91 | under any cap of at least 1, the 100-of-400 damage shock is approved with intensity `min(25, cap)`, 500 ms, the device code as target and no cooldown |
| PolicyFacts.CapsExample | middleware/tests/test_policy.py:24-30 | a mapping of intensity 99 and 99999 ms under caps 20 and 2000 resolves to 20 and 2000 |
| PolicyFacts.ApprovalStartsCooldownWindow | middleware/policy.py:91-98 | after an approval at `t`, a same-key call at `later` is a `CooldownError` exactly while `later - t` is below its cooldown, and approved afterwards |
| PolicyFacts.ApprovalTouchesOnlyItsKey | middleware/policy.py:93-98 | an approval records its own key and leaves every other key as it was |
| PolicyFacts.Run | middleware/policy.py:61-99 | a run of calls yields one outcome per call, the first being that call's `Decision` |
| PolicyFacts.ZeroCooldownNeverThrottles | middleware/policy.py:91-98 | with cooldowns of 0 and a clock that does not go backwards, no call of a run is refused for cooldown |
| PolicyFacts.UnmappedCallsChangeNothing | middleware/policy.py:64-67 | a run of unmapped events yields only `PolicyError(NoMapping)`, never `CooldownError`, and leaves the cooldown map as it was |
| PolicyFacts.CooldownScenario | middleware/policy.py:91-98 | same-key calls at `t`, `t + c - 1` and `t + c` are approved, refused for cooldown, and approved |
| Security.EncodeChar | middleware/security.py:14 | UTF-8 encodes one character in 1 to 4 bytes, an ASCII character as its own single byte |
| Security.Utf8Encode | middleware/security.py:14 | the encoding is 1 to 4 bytes per character, and byte for byte the text when it is ASCII |
| Security.VerifySignature | middleware/security.py:9-15 | a missing or empty signature is `False`; `True` exactly when the ASCII signature equals the expected digest; `TypeError` exactly when a non-empty signature or the digest holds a non-ASCII character |
| Security.VerifyMeansExpected | middleware/security.py:14-15 | with a hex digest, a non-empty ASCII signature is accepted exactly when it equals the expected digest |
| Security.SignedBodyVerifies | middleware/security.py:14-15 | a body signed with the shared secret passes the check |
| Security.NonDigestRejected | middleware/security.py:14-15 | ASCII text that is not 64 lowercase hex digits is refused, whatever the body and secret |
| Security.ShortSignaturesRejected | middleware/tests/test_signature.py:18-21 | "bad" and "deadbeef" are refused |
| Security.UpperCaseDigestRejected | middleware/security.py:15 | the comparison is exact: a signature with an upper-case hex letter is never accepted |
| Security.NonAsciiSignatureRaises | middleware/security.py:15 | a non-ASCII signature makes the comparison raise `TypeError` |
| PiShockHttp.OperationCode | middleware/pishock_http.py:48-56 | codes exist exactly for shock, vibrate and beep, as 0, 1 and 2; any other mode raises `ValueError` (`TypeError` when unhashable) |
| PiShockHttp.OperationCodeNamesMode | middleware/pishock_http.py:15 | the operation code determines the mode: no two modes share one |
| PiShockHttp.DurationSeconds | middleware/pishock_http.py:58-59 | the duration is at least 1 s, within half a second of the request above 500 ms and even when the request lies exactly half way between two seconds, 1 s below 1500 ms and at least 2 s from 1500 ms |
| PiShockHttp.WholeSecondsExact | middleware/pishock_http.py:59 | a whole number of seconds (one or more) is sent exactly |
| PiShockHttp.DurationExamples | middleware/pishock_http.py:58-59 | 0, 300 and 500 ms give 1 s; 1500, 2000 and 2500 ms give 2 s; 3500 and 4500 ms give 4 s |
| PiShockHttp.BuildPayload | middleware/pishock_http.py:48-60 | fails exactly when the mode has no code; otherwise carries the code, the rounded seconds, and the intensity and credentials unchanged |
| PiShockHttp.SendPiShockHttp | middleware/pishock_http.py:48-67 | raises the mode's error exactly when it has no code; otherwise returns what the request to the endpoint, with that payload and a 5 s timeout, returned |
| PiShockHttp.UnsupportedModeSendsNothing | middleware/pishock_http.py:48-49 | with an unsupported mode the result is the same error whatever the request would do |
| FileIngest.StripTrailingNewlines | middleware/file_ingest.py:37 | removes exactly the trailing newlines: the result is a prefix, followed only by newlines, not ending in one |
| FileIngest.StripUndoesNewlines | middleware/file_ingest.py:37 | appending newlines to a line that does not end in one is undone by the strip |
| FileIngest.SplitAtFirstTab | middleware/file_ingest.py:41-45 | no split exactly when there is no tab; otherwise head, tab and rest rebuild the line and the head has no tab |
| FileIngest.SplitJoinsBack | middleware/file_ingest.py:42 | joining a tab-free head and any body at a tab and splitting again gives both back |
| FileIngest.SignatureCheck | middleware/file_ingest.py:47-48 | an empty signature is refused first; a non-text secret raises `AttributeError`; acceptance means the signature is the expected digest of the UTF-8 body |
| FileIngest.ProcessLineSpec | middleware/file_ingest.py:36-91 | a line is accepted only when it splits, its signature checks out, its body parses and `decide` approves; an error from the signature check escapes, a refused signature or an unparseable body gives `False`; the cooldown state changes only on a decision, and exactly as `decide` changes it |
| FileIngest.Settle | middleware/file_ingest.py:52-91 | the rejections `_process_line` catches (cooldown, policy, `KeyError`/`TypeError`/`ValueError`) give `False`; any other exception from `decide` (`AttributeError`, `OverflowError`) escapes; a dry-run approval gives `True`, a live one the request's `ok` or the send's error |
| FileIngest.ProcessSigned | middleware/file_ingest.py:47-91 | once a line has split: an error from the signature check escapes with the cooldown state unchanged; a refused signature or an unparseable body gives `False` with the state unchanged; accepted only when the signature checks out, the body parses and `decide` approves; a checked, parseable body settles exactly the decision on its event |
| FileIngest.ProcessLine | middleware/file_ingest.py:36-91 | the outcome and the engine's new cooldown state are those of `ProcessLineSpec` |
| FileIngest.LoadOffset | middleware/file_ingest.py:22-28 | a missing store, blank text and text `int()` refuses all load as 0; otherwise the integer the text holds |
| FileIngest.SaveOffset | middleware/file_ingest.py:31-33 | the saved text is non-empty, holds no whitespace, and `int()` reads it back as the offset |
| FileIngest.OffsetRoundTrip | middleware/file_ingest.py:22-33 | loading what was saved gives the offset back |
| IngestFacts.OutboxLineParts | middleware/file_ingest.py:37-42 | an emitter's `signature\tbody\n` line splits back into its signature and body |
| IngestFacts.BlankLineSkipped | middleware/file_ingest.py:37-39 | a line of newlines only gives `False` and leaves the cooldown state unchanged |
| IngestFacts.UntabbedLineSkipped | middleware/file_ingest.py:41-45 | a line without a tab gives `False` and leaves the cooldown state unchanged |
| IngestFacts.BadSignatureSkipped | middleware/file_ingest.py:47-50 | a refused signature gives `False` before `decide`: the cooldown state is unchanged |
| IngestFacts.DeadbeefLineSkipped | middleware/tests/test_file_ingest.py:60-73 | the forged `deadbeef` line is skipped with the cooldown state unchanged |
| IngestFacts.SignedLineReachesDecide | middleware/file_ingest.py:47-54 | a correctly signed line with a parseable body reaches `decide` with its event, and the outcome follows the decision |
| IngestFacts.SignedLineChecks | middleware/file_ingest.py:37-50 | a line `signature\tbody\n` signed with the shared secret is non-blank, splits into that signature and body, and passes the signature check |
| IngestFacts.DryRunApprovalAccepted | middleware/file_ingest.py:65-73 | in a dry run an approved signed line gives `True` and records the approval |
| IngestFacts.LiveApprovalFollowsDispatch | middleware/file_ingest.py:77-91 | live, an approved signed line gives exactly the `ok` of the request carrying its payload |
| IngestFacts.RejectedEventSkipped | middleware/file_ingest.py:52-63 | a signed line whose event `decide` rejects with an error `_process_line` catches (cooldown, policy, `KeyError`/`TypeError`/`ValueError`) gives `False` and changes nothing |
| IngestFacts.UncaughtDecideErrorEscapes | middleware/file_ingest.py:52-63 | a signed line whose event makes `decide` raise an exception outside the caught list escapes with that exception |
| IngestFacts.InvalidJsonSkipped | middleware/file_ingest.py:52-57 | a correctly signed line whose body is not JSON gives `False` and changes nothing |
| IngestFacts.SignatureErrorEscapes | middleware/file_ingest.py:47-50 | when the signature check raises, the exception escapes `_process_line` and the cooldown state is unchanged |
| IngestFacts.NonTextSecretEscapes | middleware/file_ingest.py:47-48 | a shared secret that is not text makes every split line escape with `AttributeError` |
| IngestFacts.SignedDamageLineAccepted | middleware/tests/test_file_ingest.py:44-57 | the signed 100-of-400 damage line on a fresh engine in a dry run is accepted |
| SetupWizard.AskLabel | middleware/setup_wizard.py:15-18 | the prompt, the default in brackets when there is one, then ": " |
| SetupWizard.Ask | middleware/setup_wizard.py:19-22 | the stripped answer when it is not blank, else the default if there is one, else the empty answer |
| SetupWizard.AskIsStable | middleware/setup_wizard.py:19-22 | giving back what `_ask` returned returns it again |
| SetupWizard.StarterProfile | middleware/setup_wizard.py:86-113 | the written profile keeps the entered credentials, secret, bind host and port and both flags; its session level is the entered level clamped to [1, 100]; the caps are 20, 2000 ms and 1500 ms and the device name "CyberpunkBridge"; it maps `player_damaged` to shock and `player_healed`, `quest_completed` to vibrate, in that order, with distinct names and values within the caps |
| SetupWizard.SessionMaxShockLevel | middleware/setup_wizard.py:100 | the level written is in [1, 100]: the entered level when it is in range, else the nearer bound |
| SetupWizard.StarterProfileWritesClampedLevel | middleware/setup_wizard.py:100 | the emitted `session_max_shock_level` line carries the clamped level, not the entered one |
| SetupWizard.StarterProfileShocksOnlyOnDamage | middleware/setup_wizard.py:86-113 | in the starter profile only `player_damaged` maps to shock, and the session level is in [1, 100] |
| SetupWizard.BoolText | middleware/setup_wizard.py:37-38 | flags are written "true" exactly when set and "false" exactly when not |
| SetupWizard.ServiceLines | middleware/setup_wizard.py:33-42 | the service section is ten lines under the heading "service:"; `ServiceValueLines` and `HeaderLayout` state each line's value |
| SetupWizard.PishockLines | middleware/setup_wizard.py:44-48 | the pishock section is five lines under the heading "pishock:"; `PishockValueLines` states each line's value |
| SetupWizard.ServiceValueLines | middleware/setup_wizard.py:33-42 | lines 1-3 and 6-9 of the document are `bind_host`, `bind_port`, `shared_secret` and the three caps and the session level, each after its key |
| SetupWizard.PishockValueLines | middleware/setup_wizard.py:44-48 | lines 12-15 of the document are `username`, `apikey`, `code` and `name`, each after its key |
| SetupWizard.HeaderLines | middleware/setup_wizard.py:32-51 | the fixed head is eighteen lines |
| SetupWizard.MappingLines | middleware/setup_wizard.py:55-61 | each mapping contributes exactly five lines |
| SetupWizard.DocumentLines | middleware/setup_wizard.py:32-62 | the document is eighteen lines plus five per mapping |
| SetupWizard.JoinLines | middleware/setup_wizard.py:64 | `"\n".join(lines)` starts with the first line and ends with the last |
| SetupWizard.EmitYaml | middleware/setup_wizard.py:25-64 | the loop renders exactly the document's lines joined by newlines, plus one final newline |
| SetupWizard.JoinThenNewline | middleware/setup_wizard.py:64 | joining with newlines and adding one more terminates every line |
| SetupWizard.SplitTerminatedInverse | middleware/setup_wizard.py:64 | newline-terminated single-line text reads back into exactly its lines |
| SetupWizard.NoNewlineInLines | middleware/setup_wizard.py:32-62 | when no configured text holds a newline, no rendered line does |
| SetupWizard.EmitYamlLines | middleware/setup_wizard.py:64 | the rendered text reads back into exactly the document's lines: none merged, none lost |
| SetupWizard.SectionLayout | middleware/setup_wizard.py:32-51 | "service:" first, a blank line and "pishock:" at 10-11, a blank line and "event_mappings:" at 16-17; `dry_run`/`allow_shock` read "true" exactly when set |
| SetupWizard.HeaderLayout | middleware/setup_wizard.py:32-51 | the fixed head has its section headings and blank lines at 0, 10-11 and 16-17, and the flag lines read "true" exactly when set |
| SetupWizard.MappingRenderedInOrder | middleware/setup_wizard.py:53-62 | mapping `j` is lines 18+5j to 22+5j: its name, mode, intensity, duration and cooldown, in table order, with no `target` line |
| SetupWizard.ExactlyOneTrailingNewline | middleware/setup_wizard.py:64 | the document ends in exactly one newline |

## Left out

- `middleware/app.py` is not part of this model. It is FastAPI routing, logging set-up and the HTTP status mapping around the same core.
- `run_ingest_loop` and `main` in `middleware/file_ingest.py` are left out: an endless polling loop over file handles with `time.sleep` and argparse. The offset file is an abstract store: `LoadOffset` takes `None` for a missing file or the file's text.
- The logger calls of `_process_line` are left out; they do not affect its result.
- File and console I/O are left out:
  - the YAML import and file read in `load_config` (`LoadConfig` starts from the parsed document);
  - `input()`, `print` and the file write in `run_wizard` (`Ask` takes the typed answer; `StarterProfile` builds the dict `run_wizard` writes, from the answers after conversion).
- `int()` of the wizard's port and level answers and the `.lower() == "true"` flag answers of `run_wizard` are left out. `StarterProfile` takes the converted values.
- The HMAC-SHA256 computation is a function parameter (`Digest`); `DigestShape` assumes only that it yields 64 lowercase hex characters. `hmac.compare_digest`'s constant-time behaviour is not modelled; it is text equality plus its `TypeError` on non-ASCII text.
- The clock is the parameter `nowMs`; `json.loads` is the parameter `JsonLoads` (`None` for `JSONDecodeError`); `requests.post` is the parameter `Dispatch`. Network exceptions from the request (timeouts, connection errors) are left out.
- `_damage_scaled_shock_intensity`'s floats are exact reals, with Python's round-half-to-even written out. IEEE rounding error and `inf`/`nan` (including `OverflowError` from `int(round(inf))`) are left out.
- Values.ToFloat: text is read as a number only when it is base-10 integer text; `float("2.5")`, exponents, `"inf"` and `"nan"` are left out, as is `int()` of a float `inf`/`nan`. Integer text too large for a double gives `inf` in Python; the model reads it exactly.
- Values.ToInt: Python's 4300-digit limit on `int()` of text (a `ValueError`) is left out; the model reads integer text of any length.
- Values.ToInt: `int()` of text follows base-10 Python integer syntax with ASCII digits; non-ASCII Unicode digits are left out.
- Lone surrogates in a line body (`UnicodeEncodeError` from `encode("utf-8")`) and undecodable offset files (`UnicodeDecodeError`) are left out; strings here are sequences of Unicode scalar values.
- Mapping keys that are not text are left out: the model's dicts have string keys. A YAML key written `123:` loads as an integer, and a JSON `event_type` of 123 finds it; in the model such an event is `NoMapping`.
- FileIngest.SaveOffset: Python's limit on converting integers of more than 4300 digits to and from text is left out. There `str(offset)` raises `ValueError`, and `_load_offset` reads such text as 0; the model round-trips every integer.
- Concurrency: the code has no lock and the model claims no atomicity.
- Security.VerifySignature: the model does not prove that two different secrets give different digests; that is a property of HMAC, not of this code.
- SetupWizard.EmitYaml renders a typed record rather than a dict; the `KeyError` of a missing key and `str()` of values of other types are left out. Text values are written unquoted, as the source writes them, so a value holding `": "` or a leading special character can read back differently as YAML; the model states the line structure only.
- PiShockHttp.DurationSeconds: `duration_ms / 1000` of an int beyond the double range raises `OverflowError` in Python; durations here are exact reals, so that error is left out.
- SetupWizard.DocumentLines: `str(n)` is modelled for integers; the wizard writes only integers in numeric fields.

=== FILE: config.dfy ===
/**
 * The service configuration: device credentials, safety limits and the event
 * mapping table, built from an already-parsed YAML document.
 */
module Config {
  import opened Wrappers
  import opened Values

  /** Account and device fields for the PiShock HTTP API, kept as YAML gave them. */
  datatype PiShockCredentials = PiShockCredentials(username: Value, apikey: Value, code: Value, name: Value)

  datatype ServiceConfig = ServiceConfig(
    bindHost: Value,
    bindPort: int,
    sharedSecret: Value,
    dryRun: bool,
    allowShock: bool,
    maxIntensity: int,
    maxDurationMs: int,
    defaultCooldownMs: int,
    sessionMaxShockLevel: int,
    pishock: PiShockCredentials,
    /** The `event_mappings` value as loaded: normally a dict of per-event dicts. */
    eventMappings: Value)

  const DefaultName := VStr("CyberpunkBridge")
  const CredentialFields: set<string> := {"username", "apikey", "code", "name"}
  const RequiredCredentialFields: set<string> := {"username", "apikey", "code"}

  /**
   * `PiShockCredentials(**section)`: the section must be a dict whose keys are
   * the dataclass's fields, with `name` the only optional one.
   */
  function Credentials(section: Value): (r: Result<PiShockCredentials, PyError>)
    ensures r.Success? <==>
      section.VDict? && RequiredCredentialFields <= section.fields.Keys <= CredentialFields
    ensures r.Failure? ==> r.error == TypeError
    ensures r.Success? ==>
      && r.value.username == section.fields["username"]
      && r.value.apikey == section.fields["apikey"]
      && r.value.code == section.fields["code"]
      && r.value.name == Get(section.fields, "name", DefaultName)
  {
    if section.VDict? && RequiredCredentialFields <= section.fields.Keys <= CredentialFields then
      var f := section.fields;
      Success(PiShockCredentials(f["username"], f["apikey"], f["code"], Get(f, "name", DefaultName)))
    else
      Failure(TypeError)
  }

  /** `int(service.get(key, default))`. */
  function IntField(service: map<string, Value>, key: string, default: int): (r: Result<int, PyError>)
    ensures key !in service ==> r == Success(default)
    ensures key in service ==> r == ToInt(service[key])
  {
    ToInt(Get(service, key, VInt(default)))
  }

  /** The service fields `load_config` passes through `int()`. */
  const IntFields: set<string> :=
    {"bind_port", "max_intensity", "max_duration_ms", "default_cooldown_ms", "session_max_shock_level"}

  /** The document is a dict with readable `pishock` credentials and a dict `service` section. */
  predicate SectionsRead(raw: Value) {
    && raw.VDict? && "pishock" in raw.fields && Credentials(raw.fields["pishock"]).Success?
    && "service" in raw.fields && raw.fields["service"].VDict?
  }

  /** A numeric service field is absent, so it defaults, or `int()` reads it. */
  predicate IntReadable(service: map<string, Value>, key: string) {
    key !in service || ToInt(service[key]).Success?
  }

  /**
   * `load_config` after the YAML text has been parsed into `raw`: fields are
   * read in the order the source reads them, so the first problem met is the
   * error reported.
   */
  function LoadConfig(raw: Value): (r: Result<ServiceConfig, PyError>)
    ensures !raw.VDict? ==> r == Failure(TypeError)
    ensures raw.VDict? && "pishock" !in raw.fields ==> r == Failure(KeyError("pishock"))
    ensures raw.VDict? && "pishock" in raw.fields && Credentials(raw.fields["pishock"]).Failure? ==>
      r == Failure(TypeError)
    ensures (raw.VDict? && "pishock" in raw.fields && Credentials(raw.fields["pishock"]).Success?
             && "service" !in raw.fields) ==>
      r == Failure(KeyError("service"))
    ensures (raw.VDict? && "pishock" in raw.fields && Credentials(raw.fields["pishock"]).Success?
             && "service" in raw.fields && !raw.fields["service"].VDict?) ==>
      r == Failure(AttributeError)
    ensures (SectionsRead(raw) && !IntReadable(raw.fields["service"].fields, "bind_port")) ==>
      r == Failure(ToInt(raw.fields["service"].fields["bind_port"]).error)
    ensures (SectionsRead(raw) && IntReadable(raw.fields["service"].fields, "bind_port")
             && "shared_secret" !in raw.fields["service"].fields) ==>
      r == Failure(KeyError("shared_secret"))
    ensures r.Success? <==>
      && SectionsRead(raw)
      && "shared_secret" in raw.fields["service"].fields
      && forall key :: key in IntFields ==> IntReadable(raw.fields["service"].fields, key)
    ensures r.Success? ==>
      && "service" in raw.fields && raw.fields["service"].VDict?
      && "shared_secret" in raw.fields["service"].fields
      && r.value.sharedSecret == raw.fields["service"].fields["shared_secret"]
      && Credentials(raw.fields["pishock"]) == Success(r.value.pishock)
  {
    if !raw.VDict? then Failure(TypeError)
    else if "pishock" !in raw.fields then Failure(KeyError("pishock"))
    else
      var pishock :- Credentials(raw.fields["pishock"]);
      if "service" !in raw.fields then Failure(KeyError("service"))
      else if !raw.fields["service"].VDict? then Failure(AttributeError)
      else
        var service := raw.fields["service"].fields;
        var bindHost := Get(service, "bind_host", VStr("127.0.0.1"));
        var bindPort :- IntField(service, "bind_port", 8787);
        if "shared_secret" !in service then Failure(KeyError("shared_secret"))
        else
          var sharedSecret := service["shared_secret"];
          var dryRun := Truthy(Get(service, "dry_run", VBool(true)));
          var allowShock := Truthy(Get(service, "allow_shock", VBool(false)));
          var maxIntensity :- IntField(service, "max_intensity", 20);
          var maxDurationMs :- IntField(service, "max_duration_ms", 2000);
          var defaultCooldownMs :- IntField(service, "default_cooldown_ms", 1500);
          var sessionMaxShockLevel :- IntField(service, "session_max_shock_level", 100);
          Success(ServiceConfig(
            bindHost, bindPort, sharedSecret, dryRun, allowShock, maxIntensity, maxDurationMs,
            defaultCooldownMs, sessionMaxShockLevel, pishock,
            Get(raw.fields, "event_mappings", VDict(map[]))))
  }

  /** A document with only the required fields gets every documented default. */
  lemma MinimalConfigDefaults(username: Value, apikey: Value, code: Value, secret: Value)
    ensures var raw := VDict(map[
      "pishock" := VDict(map["username" := username, "apikey" := apikey, "code" := code]),
      "service" := VDict(map["shared_secret" := secret])]);
      LoadConfig(raw) == Success(ServiceConfig(
        VStr("127.0.0.1"), 8787, secret, true, false, 20, 2000, 1500, 100,
        PiShockCredentials(username, apikey, code, DefaultName), VDict(map[])))
  {
    var creds := map["username" := username, "apikey" := apikey, "code" := code];
    assert creds.Keys == RequiredCredentialFields;
  }

  /**
   * Each service field the document leaves out takes its default; each one it
   * gives is used, after `int()` for the numeric ones.
   */
  lemma FieldsDefaultOrOverride(raw: Value)
    requires LoadConfig(raw).Success?
    ensures var c := LoadConfig(raw).value; var service := raw.fields["service"].fields;
      && c.bindHost == (if "bind_host" in service then service["bind_host"] else VStr("127.0.0.1"))
      && c.bindPort == (if "bind_port" in service then ToInt(service["bind_port"]).value else 8787)
      && c.dryRun == (if "dry_run" in service then Truthy(service["dry_run"]) else true)
      && c.allowShock == ("allow_shock" in service && Truthy(service["allow_shock"]))
      && c.maxIntensity == (if "max_intensity" in service then ToInt(service["max_intensity"]).value else 20)
      && c.maxDurationMs == (if "max_duration_ms" in service then ToInt(service["max_duration_ms"]).value else 2000)
      && c.defaultCooldownMs == (if "default_cooldown_ms" in service then ToInt(service["default_cooldown_ms"]).value else 1500)
      && c.sessionMaxShockLevel == (if "session_max_shock_level" in service then ToInt(service["session_max_shock_level"]).value else 100)
      && c.eventMappings == (if "event_mappings" in raw.fields then raw.fields["event_mappings"] else VDict(map[]))
  {
  }

  /** A numeric field that `int()` cannot read makes loading fail. */
  lemma NonIntegerFieldFails(raw: Value, key: string)
    requires raw.VDict? && "service" in raw.fields && raw.fields["service"].VDict?
    requires key in IntFields
    requires key in raw.fields["service"].fields && ToInt(raw.fields["service"].fields[key]).Failure?
    ensures LoadConfig(raw).Failure?
  {
  }

  /** Without `service.shared_secret` there is no configuration: it has no default. */
  lemma MissingSecretFails(raw: Value)
    requires raw.VDict? && "service" in raw.fields && raw.fields["service"].VDict?
    requires "shared_secret" !in raw.fields["service"].fields
    ensures LoadConfig(raw).Failure?
    ensures (SectionsRead(raw) && IntReadable(raw.fields["service"].fields, "bind_port")) ==>
      LoadConfig(raw) == Failure(KeyError("shared_secret"))
  {
  }
}

=== FILE: file_ingest.dfy ===
/**
 * The outbox ingester: each line of the emitter's outbox is
 * `<hex signature>\t<json body>`, and is checked and decided exactly as an
 * HTTP event would be. The read position survives restarts as decimal text.
 * `json.loads`, the digest and the PiShock request enter as parameters.
 */
module FileIngest {
  import opened Wrappers
  import opened Values
  import opened PyText
  import opened Security
  import opened Config
  import opened Policy
  import opened PiShockHttp

  /** `json.loads`: `None` stands for `JSONDecodeError`. */
  type JsonLoads = string -> Option<Value>

  /** How `_process_line` ends: it returns a flag, or an exception escapes it. */
  datatype LineOutcome = Handled(accepted: bool) | Propagated(error: PyError)

  /** `line.rstrip("\n")`: every trailing newline goes. */
  function StripTrailingNewlines(s: string): (r: string)
    ensures |r| <= |s| && r == s[..|r|]
    ensures forall i :: |r| <= i < |s| ==> s[i] == '\n'
    ensures r == [] || r[|r| - 1] != '\n'
    decreases |s|
  {
    if s != [] && s[|s| - 1] == '\n' then StripTrailingNewlines(s[..|s| - 1]) else s
  }

  /** Appending newlines to a line that does not end in one is undone by the strip. */
  lemma {:induction false} StripUndoesNewlines(s: string, k: nat)
    requires s == [] || s[|s| - 1] != '\n'
    ensures StripTrailingNewlines(s + seq(k, _ => '\n')) == s
    decreases k
  {
    if k > 0 {
      var t := s + seq(k, _ => '\n');
      assert t[..|t| - 1] == s + seq(k - 1, _ => '\n');
      StripUndoesNewlines(s, k - 1);
    } else {
      assert s + seq(k, _ => '\n') == s;
    }
  }

  /** `line.split("\t", 1)` unpacked into two names: the split at the first tab, if there is one. */
  function SplitAtFirstTab(s: string): (r: Option<(string, string)>)
    ensures r.None? <==> '\t' !in s
    ensures r.Some? ==> s == r.value.0 + "\t" + r.value.1 && '\t' !in r.value.0
  {
    if s == [] then None
    else if s[0] == '\t' then Some(([], s[1..]))
    else match SplitAtFirstTab(s[1..])
      case None => None
      case Some(parts) => Some(([s[0]] + parts.0, parts.1))
  }

  /** Joining at a tab and splitting again gives the parts back, whatever tabs the body holds. */
  lemma {:induction false} SplitJoinsBack(a: string, b: string)
    requires '\t' !in a
    ensures SplitAtFirstTab(a + "\t" + b) == Some((a, b))
  {
    var s := a + "\t" + b;
    if a == [] {
      assert s[0] == '\t' && s[1..] == b;
    } else {
      assert s[0] == a[0] && s[0] != '\t';
      assert s[1..] == a[1..] + "\t" + b;
      SplitJoinsBack(a[1..], b);
      assert [s[0]] + a[1..] == a;
    }
  }

  /**
   * `verify_signature(body_bytes, sig_hex, config.shared_secret)` with the
   * secret as the configuration holds it: an empty signature is refused
   * first; a secret that is not text has no `encode` and raises.
   */
  function SignatureCheck(digest: Digest, body: string, signature: string, secret: Value)
    : (r: Result<bool, PyError>)
    ensures signature == "" ==> r == Success(false)
    ensures r == Success(true) ==>
      secret.VStr? && signature == ExpectedSignature(digest, Utf8Encode(body), secret.s)
    ensures signature != "" && !secret.VStr? ==> r == Failure(AttributeError)
  {
    if signature == "" then Success(false)
    else if !secret.VStr? then Failure(AttributeError)
    else VerifySignature(digest, Utf8Encode(body), Some(signature), secret.s)
  }

  /**
   * `_process_line` as a step on the engine's cooldown state `fired`: the
   * outcome, and the state afterwards. `config` is the configuration passed
   * beside the engine; `engineConfig` is the one the engine was built with.
   */
  function ProcessLineSpec(
    line: string, config: ServiceConfig, engineConfig: ServiceConfig, fired: map<CooldownKey, int>,
    loads: JsonLoads, digest: Digest, dispatch: Dispatch, nowMs: int)
    : (out: (LineOutcome, map<CooldownKey, int>))
    ensures out.0 == Handled(true) ==>
      var parts := SplitAtFirstTab(StripTrailingNewlines(line));
      && parts.Some?
      && SignatureCheck(digest, parts.value.1, parts.value.0, config.sharedSecret) == Success(true)
      && loads(parts.value.1).Some?
      && Decision(engineConfig, fired, loads(parts.value.1).value, nowMs).0.Success?
    ensures out.1 != fired ==>
      var parts := SplitAtFirstTab(StripTrailingNewlines(line));
      && parts.Some?
      && SignatureCheck(digest, parts.value.1, parts.value.0, config.sharedSecret) == Success(true)
      && loads(parts.value.1).Some?
      && out.1 == Decision(engineConfig, fired, loads(parts.value.1).value, nowMs).1
    ensures var parts := SplitAtFirstTab(StripTrailingNewlines(line));
      (parts.Some? && SignatureCheck(digest, parts.value.1, parts.value.0, config.sharedSecret).Failure?) ==>
        out == (Propagated(SignatureCheck(digest, parts.value.1, parts.value.0, config.sharedSecret).error), fired)
    ensures var parts := SplitAtFirstTab(StripTrailingNewlines(line));
      (parts.Some? && SignatureCheck(digest, parts.value.1, parts.value.0, config.sharedSecret) == Success(true)
       && loads(parts.value.1).None?) ==>
        out == (Handled(false), fired)
  {
    var stripped := StripTrailingNewlines(line);
    if stripped == [] then (Handled(false), fired)
    else match SplitAtFirstTab(stripped)
      case None => (Handled(false), fired)
      case Some(parts) => ProcessSigned(parts.0, parts.1, config, engineConfig, fired, loads, digest, dispatch, nowMs)
  }

  /**
   * The rest of `_process_line` once the line has split into `signature` and
   * `body`: the signature check, `json.loads`, `decide`, and what follows it.
   */
  function ProcessSigned(
    signature: string, body: string, config: ServiceConfig, engineConfig: ServiceConfig,
    fired: map<CooldownKey, int>, loads: JsonLoads, digest: Digest, dispatch: Dispatch, nowMs: int)
    : (out: (LineOutcome, map<CooldownKey, int>))
    ensures out.0 == Handled(true) ==>
      && SignatureCheck(digest, body, signature, config.sharedSecret) == Success(true)
      && loads(body).Some?
      && Decision(engineConfig, fired, loads(body).value, nowMs).0.Success?
    ensures out.1 != fired ==>
      && SignatureCheck(digest, body, signature, config.sharedSecret) == Success(true)
      && loads(body).Some?
      && out.1 == Decision(engineConfig, fired, loads(body).value, nowMs).1
    ensures SignatureCheck(digest, body, signature, config.sharedSecret).Failure? ==>
      out == (Propagated(SignatureCheck(digest, body, signature, config.sharedSecret).error), fired)
    ensures SignatureCheck(digest, body, signature, config.sharedSecret) == Success(false) ==> out == (Handled(false), fired)
    ensures SignatureCheck(digest, body, signature, config.sharedSecret) == Success(true) && loads(body).None? ==>
      out == (Handled(false), fired)
    ensures SignatureCheck(digest, body, signature, config.sharedSecret) == Success(true) && loads(body).Some? ==>
      var step := Decision(engineConfig, fired, loads(body).value, nowMs);
      out == (Settle(step.0, config, dispatch), step.1)
  {
    match SignatureCheck(digest, body, signature, config.sharedSecret)
    case Failure(e) => (Propagated(e), fired)
    case Success(valid) =>
      if !valid then (Handled(false), fired)
      else match loads(body)
        case None => (Handled(false), fired)
        case Some(event) =>
          var step := Decision(engineConfig, fired, event, nowMs);
          (Settle(step.0, config, dispatch), step.1)
  }

  /**
   * What `except CooldownError` and `except (PolicyError, KeyError, TypeError,
   * ValueError)` around `decide` catch; anything else escapes.
   */
  predicate CaughtRejection(e: DecideError) {
    !e.Raised? || CaughtPyError(e.error)
  }

  /**
   * What follows `decide`: the caught rejections give `False`; any other
   * exception (`AttributeError`, `OverflowError`) escapes; an approved action
   * gives `True` in a dry run, and otherwise the request's `ok`, unless its
   * mode makes `send_pishock_http` raise.
   */
  function Settle(decided: Result<Action, DecideError>, config: ServiceConfig, dispatch: Dispatch)
    : (outcome: LineOutcome)
    ensures decided.Failure? && CaughtRejection(decided.error) ==> outcome == Handled(false)
    ensures decided.Failure? && !CaughtRejection(decided.error) ==> outcome == Propagated(decided.error.error)
    ensures decided.Success? && config.dryRun ==> outcome == Handled(true)
    ensures decided.Success? && !config.dryRun ==>
      var a := decided.value;
      var sent := SendPiShockHttp(dispatch, a.mode, a.intensity, a.durationMs,
                                  config.pishock.username, config.pishock.apikey, a.target, config.pishock.name);
      outcome == if sent.Success? then Handled(sent.value.ok) else Propagated(sent.error)
  {
    match decided
    case Failure(e) => if CaughtRejection(e) then Handled(false) else Propagated(e.error)
    case Success(action) =>
      if config.dryRun then Handled(true)
      else
        match SendPiShockHttp(dispatch, action.mode, action.intensity, action.durationMs,
                              config.pishock.username, config.pishock.apikey, action.target, config.pishock.name)
        case Failure(e) => Propagated(e)
        case Success(result) => Handled(result.ok)
  }

  /** `_process_line(line, policy, config, logger)`, with the clock reading `decide` would take as `nowMs`. */
  method ProcessLine(
    line: string, engine: PolicyEngine, config: ServiceConfig,
    loads: JsonLoads, digest: Digest, dispatch: Dispatch, nowMs: int)
    returns (outcome: LineOutcome)
    modifies engine
    ensures (outcome, engine.lastFiredMs)
      == ProcessLineSpec(line, config, engine.config, old(engine.lastFiredMs), loads, digest, dispatch, nowMs)
  {
    var stripped := StripTrailingNewlines(line);
    if stripped == [] {
      return Handled(false);
    }
    var parts := SplitAtFirstTab(stripped);
    if parts.None? {
      return Handled(false);
    }
    var (signature, body) := parts.value;
    var valid := SignatureCheck(digest, body, signature, config.sharedSecret);
    if valid.Failure? {
      return Propagated(valid.error);
    }
    if !valid.value {
      return Handled(false);
    }
    var event := loads(body);
    if event.None? {
      return Handled(false);
    }
    var decided := engine.Decide(event.value, nowMs);
    outcome := Settle(decided, config, dispatch);
  }

  /** `_load_offset`: no file, blank text and text `int()` refuses all read as 0. */
  function LoadOffset(stored: Option<string>): (offset: int)
    ensures stored.None? ==> offset == 0
    ensures stored.Some? && Strip(stored.value) == [] ==> offset == 0
    ensures stored.Some? && ParseInt(stored.value).None? ==> offset == 0
    ensures stored.Some? && ParseInt(stored.value).Some? ==> offset == ParseInt(stored.value).value
  {
    match stored
    case None => 0
    case Some(text) =>
      var t := Strip(text);
      if t == [] then 0  // blank text reads as "0"
      else
        ParseIntIgnoresStrip(text);
        match ParseInt(t)
        case Some(n) => n
        case None => 0
  }

  /** `_save_offset`: the offset written as `str(offset)`. */
  function SaveOffset(offset: int): (text: string)
    ensures text != [] && NoSpace(text)
    ensures ParseInt(text) == Some(offset)
  {
    ParseIntToText(offset);
    IntToText(offset)
  }

  /** Loading what was saved gives the offset back. */
  lemma OffsetRoundTrip(offset: int)
    ensures LoadOffset(Some(SaveOffset(offset))) == offset
  {
    var text := SaveOffset(offset);
    assert ParseInt(text) == Some(offset);
  }
}

=== FILE: ingest_facts.dfy ===
/**
 * What `_process_line` guarantees: which lines are skipped without touching
 * the engine, and what a correctly signed line leads to.
 */
module IngestFacts {
  import opened Wrappers
  import opened Values
  import opened Security
  import opened Config
  import opened Policy
  import opened PiShockHttp
  import opened FileIngest
  import PolicyFacts

  /** The line an emitter writes: signature, tab, body, newline. */
  function OutboxLine(signature: string, body: string): string {
    signature + "\t" + body + "\n"
  }

  /** A body without a trailing newline comes back out of its outbox line intact. */
  lemma OutboxLineParts(signature: string, body: string)
    requires '\t' !in signature
    requires body == [] || body[|body| - 1] != '\n'
    ensures SplitAtFirstTab(StripTrailingNewlines(OutboxLine(signature, body))) == Some((signature, body))
  {
    var joined := signature + "\t" + body;
    assert joined[|joined| - 1] != '\n';
    StripUndoesNewlines(joined, 1);
    assert joined + seq(1, _ => '\n') == OutboxLine(signature, body);
    SplitJoinsBack(signature, body);
  }

  lemma HexHasNoTab(s: string)
    requires IsHexDigest(s)
    ensures '\t' !in s
  {
  }

  /** A line of newlines only is skipped, and the engine is not consulted. */
  lemma BlankLineSkipped(
    line: string, config: ServiceConfig, engineConfig: ServiceConfig, fired: map<CooldownKey, int>,
    loads: JsonLoads, digest: Digest, dispatch: Dispatch, nowMs: int)
    requires forall i :: 0 <= i < |line| ==> line[i] == '\n'
    ensures ProcessLineSpec(line, config, engineConfig, fired, loads, digest, dispatch, nowMs) == (Handled(false), fired)
  {
  }

  /** A line without a tab is malformed: skipped, engine untouched. */
  lemma UntabbedLineSkipped(
    line: string, config: ServiceConfig, engineConfig: ServiceConfig, fired: map<CooldownKey, int>,
    loads: JsonLoads, digest: Digest, dispatch: Dispatch, nowMs: int)
    requires '\t' !in line
    ensures ProcessLineSpec(line, config, engineConfig, fired, loads, digest, dispatch, nowMs) == (Handled(false), fired)
  {
  }

  /** A signature that does not check out is skipped before `decide`: the cooldown state is unchanged. */
  lemma BadSignatureSkipped(
    signature: string, body: string, config: ServiceConfig, engineConfig: ServiceConfig, fired: map<CooldownKey, int>,
    loads: JsonLoads, digest: Digest, dispatch: Dispatch, nowMs: int)
    requires '\t' !in signature
    requires body == [] || body[|body| - 1] != '\n'
    requires SignatureCheck(digest, body, signature, config.sharedSecret) == Success(false)
    ensures ProcessLineSpec(OutboxLine(signature, body), config, engineConfig, fired, loads, digest, dispatch, nowMs)
         == (Handled(false), fired)
  {
    OutboxLineParts(signature, body);
  }

  /** The ingest test's forged line, `deadbeef` and a body, is skipped. */
  lemma DeadbeefLineSkipped(
    body: string, secret: string, config: ServiceConfig, engineConfig: ServiceConfig, fired: map<CooldownKey, int>,
    loads: JsonLoads, digest: Digest, dispatch: Dispatch, nowMs: int)
    requires DigestShape(digest)
    requires config.sharedSecret == VStr(secret)
    requires body == [] || body[|body| - 1] != '\n'
    ensures ProcessLineSpec(OutboxLine("deadbeef", body), config, engineConfig, fired, loads, digest, dispatch, nowMs)
         == (Handled(false), fired)
  {
    ShortSignaturesRejected(digest, Utf8Encode(body), secret);
    BadSignatureSkipped("deadbeef", body, config, engineConfig, fired, loads, digest, dispatch, nowMs);
  }

  /** A correctly signed line whose body is the event reaches `decide` with that event. */
  lemma SignedLineReachesDecide(
    body: string, secret: string, event: Value, config: ServiceConfig, engineConfig: ServiceConfig,
    fired: map<CooldownKey, int>, loads: JsonLoads, digest: Digest, dispatch: Dispatch, nowMs: int)
    requires DigestShape(digest)
    requires config.sharedSecret == VStr(secret)
    requires body == [] || body[|body| - 1] != '\n'
    requires loads(body) == Some(event)
    ensures var signature := ExpectedSignature(digest, Utf8Encode(body), secret);
      var step := Decision(engineConfig, fired, event, nowMs);
      ProcessLineSpec(OutboxLine(signature, body), config, engineConfig, fired, loads, digest, dispatch, nowMs)
      == (Settle(step.0, config, dispatch), step.1)
  {
    SignedLineChecks(body, secret, config, digest);
    var signature := ExpectedSignature(digest, Utf8Encode(body), secret);
    SplitLineGoesOn(OutboxLine(signature, body), signature, body, config, engineConfig, fired, loads, digest, dispatch, nowMs);
  }

  /** A line that splits at its first tab is handled by the signature check and what follows. */
  lemma SplitLineGoesOn(
    line: string, signature: string, body: string, config: ServiceConfig, engineConfig: ServiceConfig,
    fired: map<CooldownKey, int>, loads: JsonLoads, digest: Digest, dispatch: Dispatch, nowMs: int)
    requires StripTrailingNewlines(line) != []
    requires SplitAtFirstTab(StripTrailingNewlines(line)) == Some((signature, body))
    ensures ProcessLineSpec(line, config, engineConfig, fired, loads, digest, dispatch, nowMs)
      == ProcessSigned(signature, body, config, engineConfig, fired, loads, digest, dispatch, nowMs)
  {
  }

  /** A correctly signed line splits into its signature and body, and the signature checks out. */
  lemma SignedLineChecks(body: string, secret: string, config: ServiceConfig, digest: Digest)
    requires DigestShape(digest)
    requires config.sharedSecret == VStr(secret)
    requires body == [] || body[|body| - 1] != '\n'
    ensures var signature := ExpectedSignature(digest, Utf8Encode(body), secret);
      var stripped := StripTrailingNewlines(OutboxLine(signature, body));
      && stripped != []
      && SplitAtFirstTab(stripped) == Some((signature, body))
      && SignatureCheck(digest, body, signature, config.sharedSecret) == Success(true)
  {
    var signature := ExpectedSignature(digest, Utf8Encode(body), secret);
    HexHasNoTab(signature);
    OutboxLineParts(signature, body);
    SignedBodyVerifies(digest, Utf8Encode(body), secret);
  }

  /** In a dry run, a signed line whose event is approved is accepted, and the approval is recorded. */
  lemma DryRunApprovalAccepted(
    body: string, secret: string, event: Value, config: ServiceConfig, engineConfig: ServiceConfig,
    fired: map<CooldownKey, int>, loads: JsonLoads, digest: Digest, dispatch: Dispatch, nowMs: int)
    requires DigestShape(digest)
    requires config.sharedSecret == VStr(secret) && config.dryRun
    requires body == [] || body[|body| - 1] != '\n'
    requires loads(body) == Some(event)
    requires Decision(engineConfig, fired, event, nowMs).0.Success?
    ensures ProcessLineSpec(OutboxLine(ExpectedSignature(digest, Utf8Encode(body), secret), body),
                            config, engineConfig, fired, loads, digest, dispatch, nowMs)
         == (Handled(true), Decision(engineConfig, fired, event, nowMs).1)
  {
    SignedLineReachesDecide(body, secret, event, config, engineConfig, fired, loads, digest, dispatch, nowMs);
  }

  /** Live, an approved line is accepted exactly when the PiShock request reports `ok`. */
  lemma LiveApprovalFollowsDispatch(
    body: string, secret: string, event: Value, config: ServiceConfig, engineConfig: ServiceConfig,
    fired: map<CooldownKey, int>, loads: JsonLoads, digest: Digest, dispatch: Dispatch, nowMs: int)
    requires DigestShape(digest)
    requires config.sharedSecret == VStr(secret) && !config.dryRun
    requires body == [] || body[|body| - 1] != '\n'
    requires loads(body) == Some(event)
    requires Decision(engineConfig, fired, event, nowMs).0.Success?
    requires OperationCode(Decision(engineConfig, fired, event, nowMs).0.value.mode).Success?
    ensures var a := Decision(engineConfig, fired, event, nowMs).0.value;
      var payload := Payload(config.pishock.username, config.pishock.apikey, a.target, config.pishock.name,
                             OperationCode(a.mode).value, a.intensity, DurationSeconds(a.durationMs));
      ProcessLineSpec(OutboxLine(ExpectedSignature(digest, Utf8Encode(body), secret), body),
                      config, engineConfig, fired, loads, digest, dispatch, nowMs)
      == (Handled(dispatch(Endpoint, payload, DefaultTimeoutSeconds).ok), Decision(engineConfig, fired, event, nowMs).1)
  {
    SignedLineReachesDecide(body, secret, event, config, engineConfig, fired, loads, digest, dispatch, nowMs);
  }

  /**
   * A signed line whose event `decide` rejects (cooldown, policy, or a
   * `KeyError`/`TypeError`/`ValueError`) is skipped and changes nothing.
   */
  lemma RejectedEventSkipped(
    body: string, secret: string, event: Value, config: ServiceConfig, engineConfig: ServiceConfig,
    fired: map<CooldownKey, int>, loads: JsonLoads, digest: Digest, dispatch: Dispatch, nowMs: int)
    requires DigestShape(digest)
    requires config.sharedSecret == VStr(secret)
    requires body == [] || body[|body| - 1] != '\n'
    requires loads(body) == Some(event)
    requires Decision(engineConfig, fired, event, nowMs).0.Failure?
    requires CaughtRejection(Decision(engineConfig, fired, event, nowMs).0.error)
    ensures ProcessLineSpec(OutboxLine(ExpectedSignature(digest, Utf8Encode(body), secret), body),
                            config, engineConfig, fired, loads, digest, dispatch, nowMs)
         == (Handled(false), fired)
  {
    SignedLineReachesDecide(body, secret, event, config, engineConfig, fired, loads, digest, dispatch, nowMs);
  }

  /**
   * A signed line whose event makes `decide` raise something the `except`
   * clauses do not name lets that exception escape, with nothing recorded.
   */
  lemma UncaughtDecideErrorEscapes(
    body: string, secret: string, event: Value, config: ServiceConfig, engineConfig: ServiceConfig,
    fired: map<CooldownKey, int>, loads: JsonLoads, digest: Digest, dispatch: Dispatch, nowMs: int)
    requires DigestShape(digest)
    requires config.sharedSecret == VStr(secret)
    requires body == [] || body[|body| - 1] != '\n'
    requires loads(body) == Some(event)
    requires Decision(engineConfig, fired, event, nowMs).0.Failure?
    requires !CaughtRejection(Decision(engineConfig, fired, event, nowMs).0.error)
    ensures ProcessLineSpec(OutboxLine(ExpectedSignature(digest, Utf8Encode(body), secret), body),
                            config, engineConfig, fired, loads, digest, dispatch, nowMs)
         == (Propagated(Decision(engineConfig, fired, event, nowMs).0.error.error), fired)
  {
    SignedLineReachesDecide(body, secret, event, config, engineConfig, fired, loads, digest, dispatch, nowMs);
  }

  /** A correctly signed line whose body is not JSON is skipped before `decide`. */
  lemma InvalidJsonSkipped(
    body: string, secret: string, config: ServiceConfig, engineConfig: ServiceConfig,
    fired: map<CooldownKey, int>, loads: JsonLoads, digest: Digest, dispatch: Dispatch, nowMs: int)
    requires DigestShape(digest)
    requires config.sharedSecret == VStr(secret)
    requires body == [] || body[|body| - 1] != '\n'
    requires loads(body).None?
    ensures ProcessLineSpec(OutboxLine(ExpectedSignature(digest, Utf8Encode(body), secret), body),
                            config, engineConfig, fired, loads, digest, dispatch, nowMs)
         == (Handled(false), fired)
  {
    SignedLineChecks(body, secret, config, digest);
    var signature := ExpectedSignature(digest, Utf8Encode(body), secret);
    SplitLineGoesOn(OutboxLine(signature, body), signature, body, config, engineConfig, fired, loads, digest, dispatch, nowMs);
  }

  /**
   * When the signature check itself raises (a secret that is not text, a
   * non-ASCII signature), the exception escapes `_process_line` before `decide`.
   */
  lemma SignatureErrorEscapes(
    signature: string, body: string, config: ServiceConfig, engineConfig: ServiceConfig, fired: map<CooldownKey, int>,
    loads: JsonLoads, digest: Digest, dispatch: Dispatch, nowMs: int)
    requires '\t' !in signature
    requires body == [] || body[|body| - 1] != '\n'
    requires SignatureCheck(digest, body, signature, config.sharedSecret).Failure?
    ensures ProcessLineSpec(OutboxLine(signature, body), config, engineConfig, fired, loads, digest, dispatch, nowMs)
         == (Propagated(SignatureCheck(digest, body, signature, config.sharedSecret).error), fired)
  {
    OutboxLineParts(signature, body);
    var line := OutboxLine(signature, body);
    assert StripTrailingNewlines(line) != [];
    SplitLineGoesOn(line, signature, body, config, engineConfig, fired, loads, digest, dispatch, nowMs);
  }

  /** A secret that is not text makes any signed-looking line raise `AttributeError`. */
  lemma NonTextSecretEscapes(
    signature: string, body: string, config: ServiceConfig, engineConfig: ServiceConfig, fired: map<CooldownKey, int>,
    loads: JsonLoads, digest: Digest, dispatch: Dispatch, nowMs: int)
    requires signature != [] && '\t' !in signature
    requires body == [] || body[|body| - 1] != '\n'
    requires !config.sharedSecret.VStr?
    ensures ProcessLineSpec(OutboxLine(signature, body), config, engineConfig, fired, loads, digest, dispatch, nowMs)
         == (Propagated(AttributeError), fired)
  {
    SignatureErrorEscapes(signature, body, config, engineConfig, fired, loads, digest, dispatch, nowMs);
  }

  /**
   * The ingest test's accepted line: 100 damage of 400 health, armed, signed
   * with the shared secret, on a fresh engine in a dry run.
   */
  lemma SignedDamageLineAccepted(
    body: string, pishock: PiShockCredentials, loads: JsonLoads, digest: Digest, dispatch: Dispatch, nowMs: int)
    requires DigestShape(digest)
    requires Hashable(pishock.code)
    requires body == [] || body[|body| - 1] != '\n'
    requires loads(body) == Some(PolicyFacts.QuarterDamageEvent())
    ensures var config := PolicyFacts.DamageTestConfig(100, pishock);
      ProcessLineSpec(OutboxLine(ExpectedSignature(digest, Utf8Encode(body), "test-secret"), body),
                      config, config, map[], loads, digest, dispatch, nowMs).0
      == Handled(true)
  {
    var config := PolicyFacts.DamageTestConfig(100, pishock);
    PolicyFacts.QuarterDamageExample(pishock);
    DryRunApprovalAccepted(body, "test-secret", PolicyFacts.QuarterDamageEvent(), config, config,
                           map[], loads, digest, dispatch, nowMs);
  }
}

=== FILE: pishock_http.dfy ===
/**
 * The PiShock legacy `apioperate` request: the mode becomes an operation
 * code, the duration becomes whole seconds with a floor of one, and the
 * credentials and intensity are copied into the payload. The HTTP request
 * itself is a `Dispatch` parameter.
 */
module PiShockHttp {
  import opened Wrappers
  import opened Values
  import Policy

  const Endpoint := "https://do.pishock.com/api/apioperate"
  const DefaultTimeoutSeconds := 5.0

  /** `OPERATION_MAP`: shock 0, vibrate 1, beep 2. */
  const OperationMap: map<string, int> := map["shock" := 0, "vibrate" := 1, "beep" := 2]

  /** The JSON body of the request. */
  datatype Payload = Payload(
    username: Value, apikey: Value, code: Value, name: Value,
    op: int, intensity: int, durationSeconds: int)

  /** `PiShockResult`: the normalised HTTP result. */
  datatype PiShockResult = PiShockResult(ok: bool, statusCode: int, body: string)

  /** `requests.post` to the endpoint with a timeout, reduced to its result. */
  type Dispatch = (string, Payload, real) -> PiShockResult

  /** The operation code of `mode`: `mode not in OPERATION_MAP` raises before anything is built. */
  function OperationCode(mode: Value): (r: Result<int, PyError>)
    ensures r.Success? <==> mode.VStr? && mode.s in {"shock", "vibrate", "beep"}
    ensures r.Success? ==> 0 <= r.value <= 2
    ensures mode == VStr("shock") ==> r == Success(0)
    ensures mode == VStr("vibrate") ==> r == Success(1)
    ensures mode == VStr("beep") ==> r == Success(2)
    ensures r.Failure? ==> r.error == (if Hashable(mode) then ValueError else TypeError)
  {
    if !Hashable(mode) then Failure(TypeError)
    else if mode.VStr? && mode.s in OperationMap then Success(OperationMap[mode.s])
    else Failure(ValueError)
  }

  /** The mode an operation code stands for. */
  function ModeOf(op: int): Option<string> {
    if op == 0 then Some("shock")
    else if op == 1 then Some("vibrate")
    else if op == 2 then Some("beep")
    else None
  }

  /** Distinct modes never share an operation code: the code names its mode. */
  lemma OperationCodeNamesMode(mode: Value)
    requires OperationCode(mode).Success?
    ensures ModeOf(OperationCode(mode).value) == Some(mode.s)
  {
  }

  /**
   * `max(1, int(round(duration_ms / 1000)))`: the nearest whole second, ties
   * to even, but never less than one.
   */
  function DurationSeconds(durationMs: int): (s: int)
    ensures 1 <= s
    ensures 500 < durationMs ==> -0.5 <= s as real - durationMs as real / 1000.0 <= 0.5
    ensures (500 < durationMs
             && (s as real - durationMs as real / 1000.0 == 0.5 || durationMs as real / 1000.0 - s as real == 0.5))
      ==> s % 2 == 0
    ensures durationMs < 1500 ==> s == 1
    ensures durationMs >= 1500 ==> s >= 2
  {
    var rounded := Policy.RoundHalfEven(durationMs as real / 1000.0);
    if rounded < 1 then 1 else rounded
  }

  /** A whole number of seconds, one or more, is sent exactly. */
  lemma WholeSecondsExact(seconds: int)
    requires 1 <= seconds
    ensures DurationSeconds(seconds * 1000) == seconds
  {
    assert (seconds * 1000) as real / 1000.0 == seconds as real;
  }

  /** Half seconds go to the even neighbour: 500 ms and 1500 ms differ, 2500 ms is 2 s and 4500 ms is 4 s. */
  lemma DurationExamples()
    ensures DurationSeconds(0) == 1 && DurationSeconds(300) == 1 && DurationSeconds(500) == 1
    ensures DurationSeconds(1500) == 2 && DurationSeconds(2000) == 2 && DurationSeconds(2500) == 2
    ensures DurationSeconds(3500) == 4 && DurationSeconds(4500) == 4
  {
    assert Policy.RoundHalfEven(2.5) == 2;
    assert Policy.RoundHalfEven(3.5) == 4;
    assert Policy.RoundHalfEven(4.5) == 4;
    assert Policy.RoundHalfEven(1.5) == 2;
    assert Policy.RoundHalfEven(0.5) == 0;
  }

  /** Lines 48-60 of `send_pishock_http`: the membership check, then the payload. */
  function BuildPayload(
    mode: Value, intensity: int, durationMs: int,
    username: Value, apikey: Value, code: Value, name: Value): (r: Result<Payload, PyError>)
    ensures r.Failure? <==> OperationCode(mode).Failure?
    ensures r.Success? ==> && r.value.op == OperationCode(mode).value
                           && r.value.intensity == intensity
                           && r.value.durationSeconds == DurationSeconds(durationMs)
                           && r.value.username == username && r.value.apikey == apikey
                           && r.value.code == code && r.value.name == name
  {
    var op :- OperationCode(mode);
    Success(Payload(username, apikey, code, name, op, intensity, DurationSeconds(durationMs)))
  }

  /**
   * `send_pishock_http`: an unsupported mode raises before the request is
   * sent; otherwise the request's result is returned as it is.
   */
  function SendPiShockHttp(
    dispatch: Dispatch, mode: Value, intensity: int, durationMs: int,
    username: Value, apikey: Value, code: Value, name: Value): (r: Result<PiShockResult, PyError>)
    ensures r.Failure? <==> OperationCode(mode).Failure?
    ensures r.Failure? ==> r.error == OperationCode(mode).error
    ensures r.Success? ==>
      r.value == dispatch(Endpoint, BuildPayload(mode, intensity, durationMs, username, apikey, code, name).value,
                          DefaultTimeoutSeconds)
  {
    var payload :- BuildPayload(mode, intensity, durationMs, username, apikey, code, name);
    Success(dispatch(Endpoint, payload, DefaultTimeoutSeconds))
  }

  /** With an unsupported mode the request never matters: every `dispatch` gives the same error. */
  lemma UnsupportedModeSendsNothing(
    d1: Dispatch, d2: Dispatch, mode: Value, intensity: int, durationMs: int,
    username: Value, apikey: Value, code: Value, name: Value)
    requires !(mode.VStr? && mode.s in OperationMap)
    ensures SendPiShockHttp(d1, mode, intensity, durationMs, username, apikey, code, name)
         == SendPiShockHttp(d2, mode, intensity, durationMs, username, apikey, code, name)
    ensures SendPiShockHttp(d1, mode, intensity, durationMs, username, apikey, code, name).Failure?
  {
  }
}

=== FILE: policy.dfy ===
/**
 * The policy engine: the safety gate between signed game events and the
 * device. It resolves an event against the mapping table, applies the shock
 * gate, the damage-proportional intensity and the hard caps, and finally the
 * per-(event type, target) cooldown, whose state lives in a `PolicyEngine`.
 */
module Policy {
  import opened Wrappers
  import opened Values
  import opened Config

  /** The approved command. */
  datatype Action = Action(mode: Value, intensity: int, durationMs: int, target: Value)

  /** Why a `PolicyError` (other than a cooldown) was raised. */
  datatype PolicyReason = NoMapping | ShockDisabled | InvalidDamageContext | NonPositiveMaxHealth

  /**
   * What `decide` raises instead of returning an action: a `PolicyError`, its
   * subclass `CooldownError`, or a plain Python exception that escapes it.
   */
  datatype DecideError =
    | PolicyError(reason: PolicyReason)
    | CooldownError(eventType: string)
    | Raised(error: PyError)
  {
    /** `isinstance(e, PolicyError)`: a cooldown rejection is one too. */
    predicate IsPolicyError() {
      PolicyError? || CooldownError?
    }
  }

  /** Cooldown state is keyed by `(event_type, target)`. */
  type CooldownKey = (string, Value)

  /** Everything `decide` settles before it looks at the cooldown state. */
  datatype Resolved = Resolved(action: Action, key: CooldownKey, cooldownMs: int)

  const Shock := VStr("shock")
  const DamageEvent := "player_damaged"
  const MinIntensity := 1
  const MinDurationMs := 100

  function Lift<T>(r: Result<T, PyError>): (l: Result<T, DecideError>)
    ensures l.Success? <==> r.Success?
    ensures r.Success? ==> l.value == r.value
    ensures r.Failure? ==> l.error == Raised(r.error)
  {
    match r
    case Success(v) => Success(v)
    case Failure(e) => Failure(Raised(e))
  }

  /** `min(max(lo, x), hi)`. */
  function Clamp(x: int, lo: int, hi: int): (r: int)
    ensures r <= hi
    ensures lo <= hi ==> lo <= r
    ensures lo <= x <= hi ==> r == x
    ensures x <= lo <= hi ==> r == lo
    ensures lo <= hi <= x ==> r == hi
  {
    var atLeast := if x < lo then lo else x;
    if atLeast < hi then atLeast else hi
  }

  /** `max(0.0, min(1.0, x))`. */
  function ClampUnit(x: real): (r: real)
    ensures 0.0 <= r <= 1.0
    ensures 0.0 <= x <= 1.0 ==> r == x
    ensures x <= 0.0 ==> r == 0.0
    ensures 1.0 <= x ==> r == 1.0
  {
    var atMost := if x < 1.0 then x else 1.0;
    if atMost < 0.0 then 0.0 else atMost
  }

  /** Python's `round(x)`: the nearest integer, ties going to the even one. */
  function RoundHalfEven(x: real): (n: int)
    ensures -0.5 <= n as real - x <= 0.5
    ensures (n as real - x == 0.5 || x - n as real == 0.5) ==> n % 2 == 0
  {
    var f := x.Floor;
    var fraction := x - f as real;
    if fraction < 0.5 then f
    else if fraction > 0.5 then f + 1
    else if f % 2 == 0 then f
    else f + 1
  }

  /** `bool(event.get("armed", False))`. */
  predicate Armed(event: map<string, Value>): (armed: bool)
    ensures "armed" !in event ==> !armed
    ensures "armed" in event ==> armed == Truthy(event["armed"])
  {
    Truthy(Get(event, "armed", VBool(false)))
  }

  /** `event.get("context") or {}`. */
  function Context(event: map<string, Value>): (context: Value)
    ensures "context" in event && Truthy(event["context"]) ==> context == event["context"]
    ensures !("context" in event && Truthy(event["context"])) ==> context == VDict(map[])
    ensures Truthy(context) || context == VDict(map[])
  {
    if "context" in event && Truthy(event["context"]) then event["context"] else VDict(map[])
  }

  /**
   * `_damage_scaled_shock_intensity`: the damage ratio, clamped to [0, 1],
   * times the session's maximum shock level, rounded half to even.
   */
  function DamageScaledShockIntensity(level: int, event: map<string, Value>): (r: Result<int, DecideError>)
    ensures r.Success? && 0 <= level ==> 0 <= r.value <= level
    ensures r.Failure? ==>
      r.error == PolicyError(NonPositiveMaxHealth) || (r.error.Raised? && !r.error.error.AttributeError?)
    ensures !Context(event).VDict? ==> r == Failure(Raised(TypeError))
    ensures Context(event).VDict? ==>
      var fields := Context(event).fields;
      && ("damage" !in fields ==> r == Failure(Raised(KeyError("damage"))))
      && ("damage" in fields && ToFloat(fields["damage"]).Failure? ==>
            r == Failure(Raised(ToFloat(fields["damage"]).error)))
      && ("damage" in fields && ToFloat(fields["damage"]).Success? && "max_health" !in fields ==>
            r == Failure(Raised(KeyError("max_health"))))
      && ("damage" in fields && ToFloat(fields["damage"]).Success?
          && "max_health" in fields && ToFloat(fields["max_health"]).Failure? ==>
            r == Failure(Raised(ToFloat(fields["max_health"]).error)))
      && ("damage" in fields && "max_health" in fields
          && ToFloat(fields["damage"]).Success? && ToFloat(fields["max_health"]).Success? ==>
            var damage := ToFloat(fields["damage"]).value;
            var maxHealth := ToFloat(fields["max_health"]).value;
            r == if maxHealth <= 0.0 then Failure(PolicyError(NonPositiveMaxHealth))
                 else if !FitsFloat(level) then Failure(Raised(OverflowError))
                 else Success(ScaledIntensity(DamageShare(damage, maxHealth), level)))
  {
    var context := Context(event);
    var damageField :- Lift(Subscript(context, "damage"));
    var damage :- Lift(ToFloat(damageField));
    var maxHealthField :- Lift(Subscript(context, "max_health"));
    var maxHealth :- Lift(ToFloat(maxHealthField));
    if maxHealth <= 0.0 then Failure(PolicyError(NonPositiveMaxHealth))
    // `damage_ratio * level` converts the level to a float first.
    else if !FitsFloat(level) then Failure(Raised(OverflowError))
    else Success(ScaledIntensity(DamageShare(damage, maxHealth), level))
  }

  /** `max(0.0, min(1.0, damage / max_health))`: the share of the health pool lost. */
  function DamageShare(damage: real, maxHealth: real): (share: real)
    requires maxHealth > 0.0
    ensures 0.0 <= share <= 1.0
    ensures damage <= 0.0 ==> share == 0.0
    ensures maxHealth <= damage ==> share == 1.0
    ensures 0.0 <= damage <= maxHealth ==> share * maxHealth == damage
  {
    ShareBounds(damage, maxHealth);
    ClampUnit(damage / maxHealth)
  }

  lemma ShareBounds(damage: real, maxHealth: real)
    requires maxHealth > 0.0
    ensures damage <= 0.0 ==> damage / maxHealth <= 0.0
    ensures maxHealth <= damage ==> 1.0 <= damage / maxHealth
    ensures 0.0 <= damage <= maxHealth ==> 0.0 <= damage / maxHealth <= 1.0
  {
  }

  /** `int(round(share * level))`: the share of the session level, to the nearest integer. */
  function ScaledIntensity(share: real, level: int): (n: int)
    requires 0.0 <= share <= 1.0
    ensures 0 <= level ==> 0 <= n <= level
    ensures -0.5 <= n as real - share * level as real <= 0.5
    ensures (n as real - share * level as real == 0.5 || share * level as real - n as real == 0.5) ==> n % 2 == 0
  {
    RoundedShareWithin(share, level);
    RoundHalfEven(share * level as real)
  }

  lemma RoundedShareWithin(share: real, level: int)
    requires 0.0 <= share <= 1.0
    ensures 0 <= level ==> 0 <= RoundHalfEven(share * level as real) <= level
  {
    if 0 <= level {
      ScaleWithin(share, level as real);
      RoundWithin(share * level as real, 0, level);
    }
  }

  /** Rounding never leaves an interval whose ends are integers. */
  lemma RoundWithin(x: real, lo: int, hi: int)
    requires lo as real <= x <= hi as real
    ensures lo <= RoundHalfEven(x) <= hi
  {
  }

  lemma ScaleWithin(fraction: real, level: real)
    requires 0.0 <= fraction <= 1.0
    ensures 0.0 <= level ==> 0.0 <= fraction * level <= level
  {
    if 0.0 <= level {
      assert level - fraction * level == (1.0 - fraction) * level;
    }
  }

  /** The exceptions `except (KeyError, TypeError, ValueError)` catches. */
  predicate CaughtPyError(e: PyError) {
    e.KeyError? || e.TypeError? || e.ValueError?
  }

  /**
   * The `try` around the damage computation in `decide`: a `KeyError`,
   * `TypeError` or `ValueError` becomes a `PolicyError`; the `PolicyError` for a
   * non-positive `max_health` passes through as it is, and so does an
   * `OverflowError`, which the `except` clause does not name.
   */
  function DamageOverride(level: int, event: map<string, Value>): (r: Result<int, DecideError>)
    ensures r.Failure? ==>
      r.error in {PolicyError(InvalidDamageContext), PolicyError(NonPositiveMaxHealth), Raised(OverflowError)}
    ensures r.Success? <==> DamageScaledShockIntensity(level, event).Success?
    ensures r.Success? ==> r.value == DamageScaledShockIntensity(level, event).value
    ensures var d := DamageScaledShockIntensity(level, event);
      d.Failure? && d.error.Raised? && CaughtPyError(d.error.error) ==> r == Failure(PolicyError(InvalidDamageContext))
    ensures var d := DamageScaledShockIntensity(level, event);
      d.Failure? && !(d.error.Raised? && CaughtPyError(d.error.error)) ==> r == d
  {
    match DamageScaledShockIntensity(level, event)
    case Success(i) => Success(i)
    case Failure(Raised(e)) =>
      if CaughtPyError(e) then Failure(PolicyError(InvalidDamageContext)) else Failure(Raised(e))
    case Failure(e) => Failure(e)
  }

  /**
   * The event names an event type that the table does not map, or maps to an
   * empty (falsy) entry; `if not mapping` treats both alike.
   */
  predicate Unmapped(config: ServiceConfig, event: Value): (unmapped: bool)
    ensures unmapped ==> event.VDict? && "event_type" in event.fields && config.eventMappings.VDict?
    ensures (event.VDict? && "event_type" in event.fields && config.eventMappings.VDict?
             && event.fields["event_type"].VStr?) ==>
        var eventType := event.fields["event_type"].s;
        && (eventType !in config.eventMappings.fields ==> unmapped)
        && ((eventType in config.eventMappings.fields && config.eventMappings.fields[eventType] == VDict(map[])) ==> unmapped)
        && ((eventType in config.eventMappings.fields && config.eventMappings.fields[eventType].VDict?
             && config.eventMappings.fields[eventType] != VDict(map[])) ==> !unmapped)
  {
    && event.VDict? && "event_type" in event.fields
    && config.eventMappings.VDict?
    && Hashable(event.fields["event_type"])
    && var eventType := event.fields["event_type"];
       !eventType.VStr? || eventType.s !in config.eventMappings.fields
       || !Truthy(config.eventMappings.fields[eventType.s])
  }

  /**
   * Lines 64 to 94 of `decide`: everything up to the cooldown lookup, in the
   * source's order, so the first check that fails decides the error.
   */
  function Resolve(config: ServiceConfig, event: Value): (r: Result<Resolved, DecideError>)
    ensures r.Failure? ==> !r.error.CooldownError?
    ensures Unmapped(config, event) <==> r == Failure(PolicyError(NoMapping))
    ensures r.Success? ==>
      && r.value.action.intensity <= config.maxIntensity
      && (MinIntensity <= config.maxIntensity ==> MinIntensity <= r.value.action.intensity)
      && r.value.action.durationMs <= config.maxDurationMs
      && (MinDurationMs <= config.maxDurationMs ==> MinDurationMs <= r.value.action.durationMs)
    ensures r.Success? ==>
      && event.VDict? && "event_type" in event.fields && event.fields["event_type"].VStr?
      && r.value.key == (event.fields["event_type"].s, r.value.action.target)
      && Hashable(r.value.action.target)
    ensures r.Success? && r.value.action.mode == Shock ==> config.allowShock && Armed(event.fields)
    ensures r == Failure(PolicyError(ShockDisabled)) ==> event.VDict? && !(config.allowShock && Armed(event.fields))
  {
    if !event.VDict? then Failure(Raised(TypeError))
    else if "event_type" !in event.fields then Failure(Raised(KeyError("event_type")))
    else if !config.eventMappings.VDict? then Failure(Raised(AttributeError))
    else if !Hashable(event.fields["event_type"]) then Failure(Raised(TypeError))
    else if Unmapped(config, event) then Failure(PolicyError(NoMapping))
    else
      var eventType := event.fields["event_type"].s;
      var entry := config.eventMappings.fields[eventType];
      if !entry.VDict? then Failure(Raised(AttributeError))
      else
        var mapping := entry.fields;
        var mode := Get(mapping, "mode", VStr("beep"));
        var intensity :- Lift(ToInt(Get(mapping, "intensity", VInt(1))));
        var durationMs :- Lift(ToInt(Get(mapping, "duration_ms", VInt(300))));
        var target := Get(mapping, "target", config.pishock.code);
        if mode == Shock && (!config.allowShock || !Armed(event.fields)) then
          Failure(PolicyError(ShockDisabled))
        else
          var base :- if mode == Shock && eventType == DamageEvent
                      then DamageOverride(config.sessionMaxShockLevel, event.fields)
                      else Success(intensity);
          var cooldownMs :- Lift(ToInt(Get(mapping, "cooldown_ms", VInt(config.defaultCooldownMs))));
          if !Hashable(target) then Failure(Raised(TypeError))
          else
            var action := Action(mode, Clamp(base, MinIntensity, config.maxIntensity),
                                 Clamp(durationMs, MinDurationMs, config.maxDurationMs), target);
            Success(Resolved(action, (eventType, target), cooldownMs))
  }

  /** A key approved at `last` is still cooling down at `nowMs`. */
  predicate CoolingDown(fired: map<CooldownKey, int>, key: CooldownKey, cooldownMs: int, nowMs: int): (cooling: bool)
    ensures key !in fired ==> !cooling
    ensures cooldownMs <= 0 && key in fired && fired[key] <= nowMs ==> !cooling
    ensures key in fired && nowMs < fired[key] + cooldownMs ==> cooling
  {
    key in fired && nowMs - fired[key] < cooldownMs
  }

  /**
   * One call of `decide` at time `nowMs` against cooldown state `fired`: the
   * outcome, and the cooldown state afterwards.
   */
  function Decision(config: ServiceConfig, fired: map<CooldownKey, int>, event: Value, nowMs: int)
    : (out: (Result<Action, DecideError>, map<CooldownKey, int>))
    ensures out.0.Failure? ==> out.1 == fired
    ensures out.0.Success? <==>
      Resolve(config, event).Success?
      && !CoolingDown(fired, Resolve(config, event).value.key, Resolve(config, event).value.cooldownMs, nowMs)
    ensures out.0.Success? ==>
      && out.0.value == Resolve(config, event).value.action
      && out.1 == fired[Resolve(config, event).value.key := nowMs]
    ensures out.0.Failure? && out.0.error.CooldownError? <==>
      Resolve(config, event).Success?
      && CoolingDown(fired, Resolve(config, event).value.key, Resolve(config, event).value.cooldownMs, nowMs)
  {
    match Resolve(config, event)
    case Failure(e) => (Failure(e), fired)
    case Success(resolved) =>
      if CoolingDown(fired, resolved.key, resolved.cooldownMs, nowMs) then
        (Failure(CooldownError(resolved.key.0)), fired)
      else
        (Success(resolved.action), fired[resolved.key := nowMs])
  }

  /** `PolicyEngine`: one configuration and the cooldown state it owns. */
  class PolicyEngine {
    const config: ServiceConfig
    /** Last approval time, in milliseconds, per `(event_type, target)`. */
    var lastFiredMs: map<CooldownKey, int>

    constructor (config: ServiceConfig)
      ensures this.config == config && lastFiredMs == map[]
    {
      this.config := config;
      lastFiredMs := map[];
    }

    /**
     * `decide(event)`, with the clock reading passed in as `nowMs`. The state
     * is written only when the action is approved, and only at its key.
     */
    method Decide(event: Value, nowMs: int) returns (r: Result<Action, DecideError>)
      modifies this
      ensures (r, lastFiredMs) == Decision(config, old(lastFiredMs), event, nowMs)
      ensures r.Failure? ==> lastFiredMs == old(lastFiredMs)
      ensures r.Success? ==>
        && event.VDict? && "event_type" in event.fields && event.fields["event_type"].VStr?
        && lastFiredMs == old(lastFiredMs)[(event.fields["event_type"].s, r.value.target) := nowMs]
    {
      var resolved := Resolve(config, event);
      if resolved.Failure? {
        return Failure(resolved.error);
      }
      var key := resolved.value.key;
      if key in lastFiredMs {
        var last := lastFiredMs[key];
        if nowMs - last < resolved.value.cooldownMs {
          return Failure(CooldownError(key.0));
        }
      }
      lastFiredMs := lastFiredMs[key := nowMs];
      return Success(resolved.value.action);
    }
  }
}

=== FILE: policy_facts.dfy ===
/**
 * What the policy engine guarantees, stated over `Resolve` (the rules) and
 * `Decision` (one `decide` call with its cooldown state), and over runs of
 * several calls.
 */
module PolicyFacts {
  import opened Wrappers
  import opened Values
  import opened Config
  import opened Policy

  /** The event's `event_type` is `eventType`, and the table maps it to the non-empty dict `mapping`. */
  predicate Selects(config: ServiceConfig, fields: map<string, Value>, eventType: string, mapping: map<string, Value>) {
    && "event_type" in fields && fields["event_type"] == VStr(eventType)
    && config.eventMappings.VDict?
    && eventType in config.eventMappings.fields
    && config.eventMappings.fields[eventType] == VDict(mapping)
    && |mapping| > 0
  }

  /**
   * A shock mapping is refused with `PolicyError` exactly when the service
   * has not opted in or the event is not armed: both factors are needed.
   */
  lemma ShockNeedsBothFactors(config: ServiceConfig, fields: map<string, Value>, eventType: string, mapping: map<string, Value>)
    requires Selects(config, fields, eventType, mapping)
    requires Get(mapping, "mode", VStr("beep")) == Shock
    requires ToInt(Get(mapping, "intensity", VInt(1))).Success?
    requires ToInt(Get(mapping, "duration_ms", VInt(300))).Success?
    ensures Resolve(config, VDict(fields)) == Failure(PolicyError(ShockDisabled))
            <==> !(config.allowShock && Armed(fields))
  {
  }

  /**
   * Fields a mapping leaves out take their defaults: mode "beep", intensity 1,
   * duration 300 ms, the configured device code as target and the service's
   * default cooldown.
   */
  lemma MissingFieldsTakeDefaults(config: ServiceConfig, fields: map<string, Value>, eventType: string, mapping: map<string, Value>)
    requires Selects(config, fields, eventType, mapping)
    requires "mode" !in mapping && "intensity" !in mapping && "duration_ms" !in mapping
    requires "target" !in mapping && "cooldown_ms" !in mapping
    requires Hashable(config.pishock.code)
    ensures Resolve(config, VDict(fields)) == Success(Resolved(
      Action(VStr("beep"), Clamp(1, MinIntensity, config.maxIntensity),
             Clamp(300, MinDurationMs, config.maxDurationMs), config.pishock.code),
      (eventType, config.pishock.code), config.defaultCooldownMs))
  {
  }

  /**
   * An approved action carries the mapping's mode and target, its duration
   * after the cap, and, unless it is a damage shock, its intensity after the cap.
   */
  lemma ApprovedFieldsComeFromMapping(config: ServiceConfig, fields: map<string, Value>, eventType: string, mapping: map<string, Value>)
    requires Selects(config, fields, eventType, mapping)
    requires Resolve(config, VDict(fields)).Success?
    ensures var r := Resolve(config, VDict(fields)).value;
      && ToInt(Get(mapping, "intensity", VInt(1))).Success?
      && ToInt(Get(mapping, "duration_ms", VInt(300))).Success?
      && ToInt(Get(mapping, "cooldown_ms", VInt(config.defaultCooldownMs))).Success?
      && r.action.mode == Get(mapping, "mode", VStr("beep"))
      && r.action.target == Get(mapping, "target", config.pishock.code)
      && r.action.durationMs
         == Clamp(ToInt(Get(mapping, "duration_ms", VInt(300))).value, MinDurationMs, config.maxDurationMs)
      && r.cooldownMs == ToInt(Get(mapping, "cooldown_ms", VInt(config.defaultCooldownMs))).value
      && (eventType != DamageEvent || r.action.mode != Shock ==>
            r.action.intensity
            == Clamp(ToInt(Get(mapping, "intensity", VInt(1))).value, MinIntensity, config.maxIntensity))
      && (eventType == DamageEvent && r.action.mode == Shock ==>
            && DamageScaledShockIntensity(config.sessionMaxShockLevel, fields).Success?
            && r.action.intensity
               == Clamp(DamageScaledShockIntensity(config.sessionMaxShockLevel, fields).value,
                        MinIntensity, config.maxIntensity))
  {
  }

  /** A damage shock without a context cannot be scaled: it is a `PolicyError`. */
  lemma DamageShockNeedsContext(config: ServiceConfig, fields: map<string, Value>, mapping: map<string, Value>)
    requires Selects(config, fields, DamageEvent, mapping)
    requires Get(mapping, "mode", VStr("beep")) == Shock && config.allowShock && Armed(fields)
    requires ToInt(Get(mapping, "intensity", VInt(1))).Success?
    requires ToInt(Get(mapping, "duration_ms", VInt(300))).Success?
    requires "context" !in fields
    ensures Resolve(config, VDict(fields)) == Failure(PolicyError(InvalidDamageContext))
  {
  }

  /**
   * A context with a numeric `damage` and a numeric `max_health` of 0 or less
   * is refused with its own `PolicyError`, whatever else the context holds.
   */
  lemma DamageShockNeedsPositiveMaxHealth(config: ServiceConfig, fields: map<string, Value>, mapping: map<string, Value>)
    requires Selects(config, fields, DamageEvent, mapping)
    requires Get(mapping, "mode", VStr("beep")) == Shock && config.allowShock && Armed(fields)
    requires ToInt(Get(mapping, "intensity", VInt(1))).Success?
    requires ToInt(Get(mapping, "duration_ms", VInt(300))).Success?
    requires "context" in fields && fields["context"].VDict?
    requires "damage" in fields["context"].fields && "max_health" in fields["context"].fields
    requires ToFloat(fields["context"].fields["damage"]).Success?
    requires ToFloat(fields["context"].fields["max_health"]).Success?
    requires ToFloat(fields["context"].fields["max_health"]).value <= 0.0
    ensures Resolve(config, VDict(fields)) == Failure(PolicyError(NonPositiveMaxHealth))
  {
  }

  /** A context without a `damage` field cannot be scaled: the `KeyError` becomes a `PolicyError`. */
  lemma DamageShockNeedsDamageField(config: ServiceConfig, fields: map<string, Value>, mapping: map<string, Value>)
    requires Selects(config, fields, DamageEvent, mapping)
    requires Get(mapping, "mode", VStr("beep")) == Shock && config.allowShock && Armed(fields)
    requires ToInt(Get(mapping, "intensity", VInt(1))).Success?
    requires ToInt(Get(mapping, "duration_ms", VInt(300))).Success?
    requires "context" in fields && fields["context"].VDict? && "damage" !in fields["context"].fields
    ensures DamageScaledShockIntensity(config.sessionMaxShockLevel, fields) == Failure(Raised(KeyError("damage")))
    ensures Resolve(config, VDict(fields)) == Failure(PolicyError(InvalidDamageContext))
  {
  }

  /**
   * A `damage` int too large for a float makes `float()` raise
   * `OverflowError`, which the `except` clause in `decide` does not name: it
   * escapes instead of becoming a `PolicyError`.
   */
  lemma HugeDamageEscapes(config: ServiceConfig, fields: map<string, Value>, mapping: map<string, Value>, damage: int)
    requires Selects(config, fields, DamageEvent, mapping)
    requires Get(mapping, "mode", VStr("beep")) == Shock && config.allowShock && Armed(fields)
    requires ToInt(Get(mapping, "intensity", VInt(1))).Success?
    requires ToInt(Get(mapping, "duration_ms", VInt(300))).Success?
    requires "context" in fields && fields["context"].VDict?
    requires "damage" in fields["context"].fields && fields["context"].fields["damage"] == VInt(damage)
    requires !FitsFloat(damage)
    ensures DamageScaledShockIntensity(config.sessionMaxShockLevel, fields) == Failure(Raised(OverflowError))
    ensures Resolve(config, VDict(fields)) == Failure(Raised(OverflowError))
  {
  }

  /** Damage at or beyond the health pool gives the full session level. */
  lemma FullDamageGivesSessionLevel(damage: real, maxHealth: real, level: int)
    requires 0.0 < maxHealth <= damage
    ensures ScaledIntensity(DamageShare(damage, maxHealth), level) == level
  {
  }

  /** No damage, or negative damage, gives intensity 0 before the caps. */
  lemma NoDamageGivesZero(damage: real, maxHealth: real, level: int)
    requires 0.0 < maxHealth && damage <= 0.0
    ensures ScaledIntensity(DamageShare(damage, maxHealth), level) == 0
  {
  }

  lemma RoundHalfEvenMonotone(x: real, y: real)
    requires x <= y
    ensures RoundHalfEven(x) <= RoundHalfEven(y)
  {
    var fx, fy := x.Floor, y.Floor;
    if fx < fy {
      // Each rounds to its floor or the next integer, so the gap between floors suffices.
      assert RoundHalfEven(x) <= fx + 1 <= fy <= RoundHalfEven(y);
    } else {
      // Same floor: `y`'s fraction is no smaller, so `y` rounds up whenever `x` does.
      assert fx == fy && x - fx as real <= y - fy as real;
    }
  }

  lemma DivideMonotone(a: real, b: real, d: real)
    requires a <= b && 0.0 < d
    ensures a / d <= b / d
  {
    assert b / d - a / d == (b - a) / d;
  }

  lemma ScaleMonotone(u: real, v: real, level: real)
    requires u <= v && 0.0 <= level
    ensures u * level <= v * level
  {
    assert v * level - u * level == (v - u) * level;
  }

  /** A larger loss is a larger share of the health pool. */
  lemma {:induction false} DamageShareMonotone(d1: real, d2: real, maxHealth: real)
    requires d1 <= d2 && 0.0 < maxHealth
    ensures DamageShare(d1, maxHealth) <= DamageShare(d2, maxHealth)
  {
    DivideMonotone(d1, d2, maxHealth);
  }

  /** A larger share never scales to a smaller intensity. */
  lemma {:induction false} ScaledIntensityMonotone(u: real, v: real, level: int)
    requires 0.0 <= u <= v <= 1.0 && 0 <= level
    ensures ScaledIntensity(u, level) <= ScaledIntensity(v, level)
  {
    RoundedScaleMonotone(u, v, level);
  }

  lemma RoundedScaleMonotone(u: real, v: real, level: int)
    requires u <= v && 0 <= level
    ensures RoundHalfEven(u * level as real) <= RoundHalfEven(v * level as real)
  {
    ScaleMonotone(u, v, level as real);
    RoundHalfEvenMonotone(u * level as real, v * level as real);
  }

  /** More damage never means a weaker shock. */
  lemma {:induction false} MoreDamageNeverWeaker(d1: real, d2: real, maxHealth: real, level: int)
    requires d1 <= d2 && 0.0 < maxHealth && 0 <= level
    ensures ScaledIntensity(DamageShare(d1, maxHealth), level) <= ScaledIntensity(DamageShare(d2, maxHealth), level)
  {
    DamageShareMonotone(d1, d2, maxHealth);
    ScaledIntensityMonotone(DamageShare(d1, maxHealth), DamageShare(d2, maxHealth), level);
  }

  /** The configuration of the ingest test: one shock mapping for damage events, no cooldown. */
  function DamageTestConfig(maxIntensity: int, pishock: PiShockCredentials): ServiceConfig {
    ServiceConfig(
      VStr("127.0.0.1"), 8787, VStr("test-secret"), true, true, maxIntensity, 2000, 0, 100, pishock,
      VDict(map[DamageEvent := VDict(map["mode" := Shock, "duration_ms" := VInt(500), "cooldown_ms" := VInt(0)])]))
  }

  function QuarterDamageEvent(): Value {
    VDict(map[
      "event_type" := VStr(DamageEvent),
      "armed" := VBool(true),
      "context" := VDict(map["damage" := VInt(100), "max_health" := VInt(400)])])
  }

  /**
   * 100 damage against 400 health at session level 100 scales to 25; a cap
   * of 20 then brings it down to 20.
   */
  lemma QuarterDamageExample(pishock: PiShockCredentials)
    requires Hashable(pishock.code)
    ensures DamageScaledShockIntensity(100, QuarterDamageEvent().fields) == Success(25)
    ensures Resolve(DamageTestConfig(100, pishock), QuarterDamageEvent())
      == Success(Resolved(Action(Shock, 25, 500, pishock.code), (DamageEvent, pishock.code), 0))
    ensures Resolve(DamageTestConfig(20, pishock), QuarterDamageEvent())
      == Success(Resolved(Action(Shock, 20, 500, pishock.code), (DamageEvent, pishock.code), 0))
  {
    QuarterDamageScales();
    QuarterDamageResolves(100, pishock);
    QuarterDamageResolves(20, pishock);
  }

  lemma QuarterDamageScales()
    ensures DamageScaledShockIntensity(100, QuarterDamageEvent().fields) == Success(25)
  {
    assert DamageShare(100.0, 400.0) == 0.25;
    assert RoundHalfEven(0.25 * 100 as real) == 25;
  }

  lemma QuarterDamageResolves(cap: int, pishock: PiShockCredentials)
    requires Hashable(pishock.code) && 1 <= cap
    ensures Resolve(DamageTestConfig(cap, pishock), QuarterDamageEvent())
      == Success(Resolved(Action(Shock, if cap < 25 then cap else 25, 500, pishock.code), (DamageEvent, pishock.code), 0))
  {
    var config := DamageTestConfig(cap, pishock);
    var event := QuarterDamageEvent();
    QuarterDamageScales();
    DamageTestMapping(cap, pishock);
    assert !Unmapped(config, event);
    assert Armed(event.fields);
    assert DamageOverride(100, event.fields) == Success(25);
  }

  /** What `decide` reads from the test configuration's damage mapping. */
  lemma DamageTestMapping(cap: int, pishock: PiShockCredentials)
    ensures var config := DamageTestConfig(cap, pishock);
      && config.eventMappings.VDict? && DamageEvent in config.eventMappings.fields
      && config.eventMappings.fields[DamageEvent].VDict?
      && var mapping := config.eventMappings.fields[DamageEvent].fields;
      && Get(mapping, "mode", VStr("beep")) == Shock
      && ToInt(Get(mapping, "intensity", VInt(1))) == Success(1)
      && ToInt(Get(mapping, "duration_ms", VInt(300))) == Success(500)
      && ToInt(Get(mapping, "cooldown_ms", VInt(config.defaultCooldownMs))) == Success(0)
      && Get(mapping, "target", config.pishock.code) == pishock.code
  {
  }

  /** A mapping asking for intensity 99 and 99999 ms is cut to the caps 20 and 2000. */
  lemma CapsExample(pishock: PiShockCredentials)
    requires Hashable(pishock.code)
    ensures var config := ServiceConfig(
      VStr("127.0.0.1"), 8787, VStr("secret"), true, false, 20, 2000, 1500, 100, pishock,
      VDict(map["evt" := VDict(map["mode" := VStr("vibrate"), "intensity" := VInt(99), "duration_ms" := VInt(99999)])]));
      Resolve(config, VDict(map["event_type" := VStr("evt"), "armed" := VBool(false)]))
      == Success(Resolved(Action(VStr("vibrate"), 20, 2000, pishock.code), ("evt", pishock.code), 1500))
  {
  }

  /**
   * After an approval at `t`, a call with the same key at `later` is refused
   * with `CooldownError` exactly while `later - t` is below its cooldown, and
   * approved from then on.
   */
  lemma ApprovalStartsCooldownWindow(config: ServiceConfig, fired: map<CooldownKey, int>, event: Value, t: int, next: Value, later: int)
    requires Decision(config, fired, event, t).0.Success?
    requires Resolve(config, next).Success? && Resolve(config, next).value.key == Resolve(config, event).value.key
    ensures var r := Resolve(config, next).value;
      Decision(config, Decision(config, fired, event, t).1, next, later).0
      == if later - t < r.cooldownMs then Failure(CooldownError(r.key.0)) else Success(r.action)
  {
  }

  /** An approval records its own key and leaves every other key as it was. */
  lemma ApprovalTouchesOnlyItsKey(config: ServiceConfig, fired: map<CooldownKey, int>, event: Value, t: int, key: CooldownKey)
    requires Decision(config, fired, event, t).0.Success?
    requires key != Resolve(config, event).value.key
    ensures var after := Decision(config, fired, event, t).1;
      && Resolve(config, event).value.key in after
      && (key in after <==> key in fired)
      && (key in fired ==> after[key] == fired[key])
  {
  }

  /** One `decide` call of a run: the event and the clock reading. */
  datatype Call = Call(event: Value, nowMs: int)

  /** A run of `decide` calls on one engine: the outcomes in order, and the final cooldown state. */
  function Run(config: ServiceConfig, fired: map<CooldownKey, int>, calls: seq<Call>)
    : (out: (seq<Result<Action, DecideError>>, map<CooldownKey, int>))
    ensures |out.0| == |calls|
    ensures calls != [] ==> out.0[0] == Decision(config, fired, calls[0].event, calls[0].nowMs).0
    decreases |calls|
  {
    if calls == [] then ([], fired)
    else
      var step := Decision(config, fired, calls[0].event, calls[0].nowMs);
      var rest := Run(config, step.1, calls[1..]);
      ([step.0] + rest.0, rest.1)
  }

  lemma {:induction false} RunStep(config: ServiceConfig, fired: map<CooldownKey, int>, calls: seq<Call>, i: int)
    requires 0 < i < |calls|
    ensures Run(config, fired, calls).0[i]
      == Run(config, Decision(config, fired, calls[0].event, calls[0].nowMs).1, calls[1..]).0[i - 1]
  {
  }

  predicate NonDecreasing(calls: seq<Call>) {
    forall i, j :: 0 <= i < j < |calls| ==> calls[i].nowMs <= calls[j].nowMs
  }

  predicate NoneAfter(fired: map<CooldownKey, int>, t: int) {
    forall key :: key in fired ==> fired[key] <= t
  }

  /**
   * With cooldowns of 0 (or less) and a clock that does not go backwards, no
   * call of a run is ever refused for cooldown.
   */
  lemma {:induction false} ZeroCooldownNeverThrottles(config: ServiceConfig, fired: map<CooldownKey, int>, calls: seq<Call>)
    requires NonDecreasing(calls)
    requires calls != [] ==> NoneAfter(fired, calls[0].nowMs)
    requires forall i :: 0 <= i < |calls| && Resolve(config, calls[i].event).Success? ==>
      Resolve(config, calls[i].event).value.cooldownMs <= 0
    ensures forall i :: 0 <= i < |calls| ==> Run(config, fired, calls).0[i] != Failure(CooldownError(EventTypeOf(calls[i].event)))
    ensures forall i :: 0 <= i < |calls| ==> !(Run(config, fired, calls).0[i].Failure? && Run(config, fired, calls).0[i].error.CooldownError?)
    decreases |calls|
  {
    if calls != [] {
      var step := Decision(config, fired, calls[0].event, calls[0].nowMs);
      assert !(step.0.Failure? && step.0.error.CooldownError?);
      var rest := calls[1..];
      if rest != [] {
        assert NoneAfter(step.1, rest[0].nowMs) by {
          forall key | key in step.1 ensures step.1[key] <= rest[0].nowMs {
            assert calls[0].nowMs <= calls[1].nowMs;
          }
        }
      }
      ZeroCooldownNeverThrottles(config, step.1, rest);
      forall i | 0 < i < |calls|
        ensures !(Run(config, fired, calls).0[i].Failure? && Run(config, fired, calls).0[i].error.CooldownError?)
      {
        RunStep(config, fired, calls, i);
      }
    }
  }

  function EventTypeOf(event: Value): string {
    if event.VDict? && "event_type" in event.fields && event.fields["event_type"].VStr?
    then event.fields["event_type"].s else ""
  }

  /**
   * Unmapped events are refused with a plain `PolicyError` however often they
   * come, never with `CooldownError`, and the cooldown state never changes.
   */
  lemma {:induction false} UnmappedCallsChangeNothing(config: ServiceConfig, fired: map<CooldownKey, int>, calls: seq<Call>)
    requires forall i :: 0 <= i < |calls| ==> Unmapped(config, calls[i].event)
    ensures Run(config, fired, calls).1 == fired
    ensures forall i :: 0 <= i < |calls| ==> Run(config, fired, calls).0[i] == Failure(PolicyError(NoMapping))
    decreases |calls|
  {
    if calls != [] {
      UnmappedCallsChangeNothing(config, fired, calls[1..]);
      forall i | 0 < i < |calls| ensures Run(config, fired, calls).0[i] == Failure(PolicyError(NoMapping)) {
        RunStep(config, fired, calls, i);
      }
    }
  }

  /**
   * Three calls with the same key: approved at `t`, refused with
   * `CooldownError` one millisecond before the window closes, approved again
   * once it has.
   */
  lemma CooldownScenario(config: ServiceConfig, event: Value, t: int)
    requires Resolve(config, event).Success? && Resolve(config, event).value.cooldownMs > 0
    ensures var c := Resolve(config, event).value.cooldownMs;
      var outcomes := Run(config, map[], [Call(event, t), Call(event, t + c - 1), Call(event, t + c)]).0;
      && outcomes[0] == Success(Resolve(config, event).value.action)
      && outcomes[1] == Failure(CooldownError(Resolve(config, event).value.key.0))
      && outcomes[2] == Success(Resolve(config, event).value.action)
  {
    var c := Resolve(config, event).value.cooldownMs;
    var calls := [Call(event, t), Call(event, t + c - 1), Call(event, t + c)];
    var s1 := Decision(config, map[], event, t).1;
    RunStep(config, map[], calls, 1);
    RunStep(config, map[], calls, 2);
    assert calls[1..][1..] == [Call(event, t + c)];
    RunStep(config, s1, calls[1..], 1);
  }
}

=== FILE: pytext.dfy ===
/**
 * The Python text conversions the middleware relies on: `str.strip()`,
 * `str(n)` for an integer and `int(text)` in base 10.
 */
module PyText {
  import opened Wrappers

  /** The characters `str.isspace()` accepts (and `str.strip()` removes). */
  predicate IsSpace(c: char) {
    || ('\t' <= c <= '\r')
    || ('\U{1c}' <= c <= '\U{1f}')
    || c == ' ' || c == '\U{85}' || c == '\U{a0}' || c == '\U{1680}'
    || ('\U{2000}' <= c <= '\U{200a}')
    || c == '\U{2028}' || c == '\U{2029}' || c == '\U{202f}' || c == '\U{205f}' || c == '\U{3000}'
  }

  predicate NoSpace(s: string) {
    forall i :: 0 <= i < |s| ==> !IsSpace(s[i])
  }

  /** `s.lstrip()`: drops the leading whitespace and nothing else. */
  function TrimStart(s: string): (r: string)
    ensures |r| <= |s| && r == s[|s| - |r|..]
    ensures r == [] || !IsSpace(r[0])
    ensures forall i :: 0 <= i < |s| - |r| ==> IsSpace(s[i])
  {
    if s != [] && IsSpace(s[0]) then TrimStart(s[1..]) else s
  }

  /** `s.rstrip()`: drops the trailing whitespace and nothing else. */
  function TrimEnd(s: string): (r: string)
    ensures |r| <= |s| && r == s[..|r|]
    ensures r == [] || !IsSpace(r[|r| - 1])
    ensures forall i :: |r| <= i < |s| ==> IsSpace(s[i])
  {
    if s != [] && IsSpace(s[|s| - 1]) then TrimEnd(s[..|s| - 1]) else s
  }

  /** `s.strip()`. */
  function Strip(s: string): (r: string)
    ensures |r| <= |s|
    ensures r == [] || (!IsSpace(r[0]) && !IsSpace(r[|r| - 1]))
    ensures NoSpace(s) ==> r == s
    ensures s != [] && !IsSpace(s[0]) && !IsSpace(s[|s| - 1]) ==> r == s
    ensures r == [] <==> forall i :: 0 <= i < |s| ==> IsSpace(s[i])
    ensures exists i :: TrimmedAt(s, r, i)
  {
    StripParts(s);
    StripTrimmed(s);
    TrimEnd(TrimStart(s))
  }

  /**
   * `r` is the slice of `s` that starts at `i`, and everything outside it is
   * whitespace.
   */
  predicate TrimmedAt(s: string, r: string, i: int) {
    && 0 <= i <= |s| - |r| && r == s[i..i + |r|]
    && (forall j :: 0 <= j < i ==> IsSpace(s[j]))
    && (forall j :: i + |r| <= j < |s| ==> IsSpace(s[j]))
  }

  /** Stripping twice is stripping once. */
  lemma StripIdempotent(s: string)
    ensures Strip(Strip(s)) == Strip(s)
  {
  }

  /** `int()` strips its argument itself, so stripping first changes nothing. */
  lemma ParseIntIgnoresStrip(s: string)
    ensures ParseInt(Strip(s)) == ParseInt(s)
  {
    StripIdempotent(s);
    assert ParseInt(Strip(s)) == ParseStripped(Strip(Strip(s)));
  }

  lemma StripParts(s: string)
    ensures var t := TrimStart(s); var r := TrimEnd(t);
      && (r != [] ==> r[0] == t[0] && !IsSpace(s[|s| - |t|]))
      && (NoSpace(s) ==> t == s && r == s)
      && (s != [] && !IsSpace(s[0]) && !IsSpace(s[|s| - 1]) ==> t == s && r == s)
      && (r == [] ==> forall i :: 0 <= i < |s| ==> IsSpace(s[i]))
  {
    var t := TrimStart(s);
    var r := TrimEnd(t);
    if r == [] {
      assert t == [];
    }
  }

  lemma StripTrimmed(s: string)
    ensures TrimmedAt(s, TrimEnd(TrimStart(s)), |s| - |TrimStart(s)|)
  {
    TrimmedSlice(s, TrimStart(s), TrimEnd(TrimStart(s)));
  }

  /** A suffix of `s` after whitespace, then a prefix of that before whitespace, is a trimmed slice of `s`. */
  lemma TrimmedSlice(s: string, t: string, r: string)
    requires |t| <= |s| && t == s[|s| - |t|..]
    requires forall j :: 0 <= j < |s| - |t| ==> IsSpace(s[j])
    requires |r| <= |t| && r == t[..|r|]
    requires forall j :: |r| <= j < |t| ==> IsSpace(t[j])
    ensures TrimmedAt(s, r, |s| - |t|)
  {
    var i := |s| - |t|;
    forall j | i + |r| <= j < |s| ensures IsSpace(s[j]) {
      assert s[j] == t[j - i];
    }
  }

  predicate IsDigit(c: char) {
    '0' <= c <= '9'
  }

  predicate AllDigits(s: string) {
    forall i :: 0 <= i < |s| ==> IsDigit(s[i])
  }

  function DigitChar(d: nat): (c: char)
    requires d < 10
    ensures IsDigit(c)
  {
    "0123456789"[d]
  }

  function DigitValue(c: char): (d: nat)
    requires IsDigit(c)
    ensures d < 10 && DigitChar(d) == c
  {
    (c as int - '0' as int)
  }

  /** The value of a run of decimal digits, most significant first. */
  function DigitsValue(ds: string): nat
    requires AllDigits(ds)
  {
    if ds == [] then 0 else DigitsValue(ds[..|ds| - 1]) * 10 + DigitValue(ds[|ds| - 1])
  }

  /** `str(n)` for a non-negative integer. */
  function NatToText(n: nat): (r: string)
    ensures |r| >= 1 && AllDigits(r)
    ensures r[0] == '0' ==> n == 0
  {
    if n < 10 then [DigitChar(n)] else NatToText(n / 10) + [DigitChar(n % 10)]
  }

  /** `str(n)`: an optional minus sign, then the decimal digits. */
  function IntToText(n: int): (r: string)
    ensures |r| >= 1 && IsDigit(r[|r| - 1])
    ensures NoSpace(r)
    ensures forall i :: 0 <= i < |r| ==> r[i] != '\n'
  {
    if n < 0 then "-" + NatToText(-n) else NatToText(n)
  }

  /**
   * The body of a base-10 literal as `int()` accepts it: digits, with single
   * underscores allowed between two digits.
   */
  predicate WellFormedDigits(s: string) {
    && |s| > 0
    && forall i :: 0 <= i < |s| ==> IsDigit(s[i]) || SeparatorAt(s, i)
  }

  /** An underscore at `i` that sits between a digit-led prefix and a digit. */
  predicate SeparatorAt(s: string, i: int)
    requires 0 <= i < |s|
  {
    s[i] == '_' && 0 < i && i + 1 < |s| && IsDigit(s[i + 1])
  }

  function RemoveUnderscores(s: string): (r: string)
    ensures (forall i :: 0 <= i < |s| ==> IsDigit(s[i]) || s[i] == '_') ==> AllDigits(r)
    ensures AllDigits(s) ==> r == s
  {
    if s == [] then []
    else if s[0] == '_' then RemoveUnderscores(s[1..])
    else [s[0]] + RemoveUnderscores(s[1..])
  }

  lemma WellFormedChars(s: string)
    requires WellFormedDigits(s)
    ensures forall i :: 0 <= i < |s| ==> IsDigit(s[i]) || s[i] == '_'
  {
  }

  /** Python's `int(text)`: `None` stands for the `ValueError` it raises. */
  function ParseInt(text: string): (r: Option<int>)
    ensures (forall i :: 0 <= i < |text| ==> IsSpace(text[i])) ==> r == None
  {
    ParseStripped(Strip(text))
  }

  /** `int()` after its own strip: an optional sign, then digits with single separating underscores. */
  function ParseStripped(t: string): (r: Option<int>)
    ensures t == [] || t == "-" || t == "+" ==> r == None
    ensures r.Some? ==> t != [] && (t[0] == '-' ==> r.value <= 0) && (t[0] != '-' ==> r.value >= 0)
  {
    var signed := |t| > 0 && (t[0] == '-' || t[0] == '+');
    var body := if signed then t[1..] else t;
    if WellFormedDigits(body) then
      WellFormedChars(body);
      var magnitude: int := DigitsValue(RemoveUnderscores(body));
      Some(if signed && t[0] == '-' then -magnitude else magnitude)
    else
      None
  }

  /** Plain digit text reads as its decimal value. */
  lemma ParseDigits(text: string)
    requires AllDigits(text) && text != []
    ensures ParseInt(text) == Some(DigitsValue(text))
  {
    assert NoSpace(text);
    assert Strip(text) == text;
    assert text[0] != '-' && text[0] != '+';
    assert WellFormedDigits(text);
    assert RemoveUnderscores(text) == text;
  }

  lemma {:induction false} NatToTextValue(n: nat)
    ensures DigitsValue(NatToText(n)) == n
  {
    if n >= 10 {
      var r := NatToText(n);
      assert r[..|r| - 1] == NatToText(n / 10);
      NatToTextValue(n / 10);
    }
  }

  /** Reading back what `str(n)` wrote gives `n` again, for every integer. */
  lemma ParseIntToText(n: int)
    ensures ParseInt(IntToText(n)) == Some(n)
  {
    var s := IntToText(n);
    assert Strip(s) == s;
    assert ParseInt(s) == ParseStripped(s);
    ParseStrippedText(n);
  }

  lemma ParseStrippedText(n: int)
    ensures ParseStripped(IntToText(n)) == Some(n)
  {
    var s := IntToText(n);
    var digits := if n < 0 then NatToText(-n) else NatToText(n);
    assert digits == if n < 0 then s[1..] else s;
    assert s[0] == '-' <==> n < 0;
    assert s[0] != '+';
    assert WellFormedDigits(digits);
    assert RemoveUnderscores(digits) == digits;
    NatToTextValue(if n < 0 then -n else n);
  }
}

=== FILE: security.dfy ===
/**
 * Signature check for inbound events: a hex HMAC-SHA256 (RFC 2104 HMAC over
 * SHA-256) of the raw body, keyed by the UTF-8 bytes of the shared secret.
 * The digest itself is a library computation and enters the model as a
 * function parameter.
 */
module Security {
  import opened Wrappers
  import opened Values

  newtype byte = b: int | 0 <= b < 256

  /** `hmac.new(key, message, hashlib.sha256).hexdigest()`, taken as given. */
  type Digest = (seq<byte>, seq<byte>) -> string

  predicate IsLowerHex(c: char) {
    '0' <= c <= '9' || 'a' <= c <= 'f'
  }

  /** What every SHA-256 hex digest looks like: 64 lowercase hexadecimal characters. */
  predicate IsHexDigest(s: string) {
    |s| == 64 && forall i :: 0 <= i < |s| ==> IsLowerHex(s[i])
  }

  /** `digest` has the shape of HMAC-SHA256 `hexdigest()` for every key and message. */
  ghost predicate DigestShape(digest: Digest) {
    forall key, message :: IsHexDigest(digest(key, message))
  }

  /** The UTF-8 encoding of one character. */
  function EncodeChar(c: char): (r: seq<byte>)
    ensures 1 <= |r| <= 4
    ensures c as int < 0x80 <==> |r| == 1
    ensures c as int < 0x80 ==> r == [c as int as byte]
  {
    var n := c as int;
    if n < 0x80 then [n as byte]
    else if n < 0x800 then [(0xC0 + n / 0x40) as byte, (0x80 + n % 0x40) as byte]
    else if n < 0x10000 then
      [(0xE0 + n / 0x1000) as byte, (0x80 + n / 0x40 % 0x40) as byte, (0x80 + n % 0x40) as byte]
    else
      [(0xF0 + n / 0x40000) as byte, (0x80 + n / 0x1000 % 0x40) as byte,
       (0x80 + n / 0x40 % 0x40) as byte, (0x80 + n % 0x40) as byte]
  }

  predicate IsAscii(s: string) {
    forall i :: 0 <= i < |s| ==> s[i] as int < 0x80
  }

  /** `s.encode("utf-8")`. */
  function Utf8Encode(s: string): (r: seq<byte>)
    ensures |s| <= |r| <= 4 * |s|
    ensures IsAscii(s) ==> |r| == |s| && forall i :: 0 <= i < |s| ==> r[i] as int == s[i] as int
  {
    if s == [] then [] else EncodeChar(s[0]) + Utf8Encode(s[1..])
  }

  /** The signature a sender holding `secret` attaches to `body`. */
  function ExpectedSignature(digest: Digest, body: seq<byte>, secret: string): string {
    digest(Utf8Encode(secret), body)
  }

  /**
   * `verify_signature`: a missing or empty signature is refused without
   * computing anything; otherwise the signature must equal the expected digest.
   * `hmac.compare_digest` is text equality here, except that it raises
   * `TypeError` when either text holds a non-ASCII character.
   */
  function VerifySignature(digest: Digest, body: seq<byte>, signature: Option<string>, secret: string)
    : (r: Result<bool, PyError>)
    ensures signature == None || signature == Some("") ==> r == Success(false)
    ensures r == Success(true) <==>
      signature.Some? && signature.value != "" && signature.value == ExpectedSignature(digest, body, secret)
              && IsAscii(signature.value)
    ensures r.Failure? <==>
      && signature.Some? && signature.value != ""
      && !(IsAscii(signature.value) && IsAscii(ExpectedSignature(digest, body, secret)))
    ensures r.Failure? ==> r.error == TypeError
  {
    if signature.None? || signature.value == "" then Success(false)
    else
      var expected := ExpectedSignature(digest, body, secret);
      if IsAscii(expected) && IsAscii(signature.value) then Success(expected == signature.value)
      else Failure(TypeError)
  }

  lemma HexIsAscii(s: string)
    requires IsHexDigest(s)
    ensures IsAscii(s)
  {
    assert forall i :: 0 <= i < |s| ==> IsLowerHex(s[i]);
  }

  /**
   * With a real digest, a non-empty ASCII signature is accepted exactly when
   * it is the expected digest.
   */
  lemma VerifyMeansExpected(digest: Digest, body: seq<byte>, signature: string, secret: string)
    requires DigestShape(digest)
    requires signature != "" && IsAscii(signature)
    ensures VerifySignature(digest, body, Some(signature), secret)
      == Success(signature == ExpectedSignature(digest, body, secret))
  {
    HexIsAscii(digest(Utf8Encode(secret), body));
  }

  /** A body signed with the shared secret passes the check. */
  lemma SignedBodyVerifies(digest: Digest, body: seq<byte>, secret: string)
    requires DigestShape(digest)
    ensures VerifySignature(digest, body, Some(ExpectedSignature(digest, body, secret)), secret) == Success(true)
  {
    var expected := digest(Utf8Encode(secret), body);
    HexIsAscii(expected);
    VerifyMeansExpected(digest, body, expected, secret);
  }

  /** ASCII text that cannot be a hex digest is refused, whatever the body and secret. */
  lemma NonDigestRejected(digest: Digest, body: seq<byte>, signature: string, secret: string)
    requires DigestShape(digest)
    requires !IsHexDigest(signature) && IsAscii(signature)
    ensures VerifySignature(digest, body, Some(signature), secret) == Success(false)
  {
    if signature != "" {
      VerifyMeansExpected(digest, body, signature, secret);
    }
  }

  /** The rejections the source's tests rely on: "bad" and "deadbeef". */
  lemma ShortSignaturesRejected(digest: Digest, body: seq<byte>, secret: string)
    requires DigestShape(digest)
    ensures VerifySignature(digest, body, Some("bad"), secret) == Success(false)
    ensures VerifySignature(digest, body, Some("deadbeef"), secret) == Success(false)
  {
    NonDigestRejected(digest, body, "bad", secret);
    NonDigestRejected(digest, body, "deadbeef", secret);
  }

  /** The comparison is exact: a signature with an upper-case hex letter is never accepted. */
  lemma UpperCaseDigestRejected(digest: Digest, body: seq<byte>, signature: string, secret: string)
    requires DigestShape(digest)
    requires exists i :: 0 <= i < |signature| && 'A' <= signature[i] <= 'F'
    ensures VerifySignature(digest, body, Some(signature), secret) != Success(true)
  {
    var expected := digest(Utf8Encode(secret), body);
    assert IsHexDigest(expected);
  }

  /** A signature holding a non-ASCII character makes the comparison raise `TypeError`. */
  lemma NonAsciiSignatureRaises(digest: Digest, body: seq<byte>, signature: string, secret: string)
    requires !IsAscii(signature)
    ensures VerifySignature(digest, body, Some(signature), secret) == Failure(TypeError)
  {
  }
}

=== FILE: setup_wizard.dfy ===
/**
 * The first-run setup wizard: the prompt default rule, the clamp on the
 * session's maximum shock level, the starter profile, and the deterministic
 * YAML renderer that writes the configuration out line by line.
 */
module SetupWizard {
  import opened Wrappers
  import opened PyText
  import Policy

  /** One entry of `event_mappings` as the wizard writes it. */
  datatype WizardMapping = WizardMapping(mode: string, intensity: int, durationMs: int, cooldownMs: int)

  /**
   * The configuration dict `_emit_yaml` renders; the mapping table keeps the
   * dict's insertion order.
   */
  datatype WizardConfig = WizardConfig(
    bindHost: string, bindPort: int, sharedSecret: string, dryRun: bool, allowShock: bool,
    maxIntensity: int, maxDurationMs: int, defaultCooldownMs: int, sessionMaxShockLevel: int,
    username: string, apikey: string, code: string, name: string,
    eventMappings: seq<(string, WizardMapping)>)

  /** The prompt text `_ask` shows: the default, when there is one, in brackets. */
  function AskLabel(prompt: string, default: Option<string>): (shown: string)
    ensures default.None? ==> shown == prompt + ": "
    ensures default.Some? ==> shown == prompt + " [" + default.value + "]: "
  {
    prompt + (if default.Some? then " [" + default.value + "]" else "") + ": "
  }

  /** `_ask` after `input()` returned `typed`: a blank answer takes the default, if there is one. */
  function Ask(typed: string, default: Option<string>): (answer: string)
    ensures Strip(typed) != [] ==> answer == Strip(typed)
    ensures Strip(typed) == [] && default.Some? ==> answer == default.value
    ensures Strip(typed) == [] && default.None? ==> answer == []
  {
    var value := Strip(typed);
    if value == [] && default.Some? then default.value else value
  }

  /** Answering with what `_ask` returned gives the same answer again, when the default is already stripped. */
  lemma AskIsStable(typed: string, default: Option<string>)
    requires default.Some? ==> Strip(default.value) == default.value
    ensures Ask(Ask(typed, default), default) == Ask(typed, default)
  {
    StripIdempotent(typed);
  }

  /** `min(max(1, session_max_shock_level), 100)`. */
  function SessionMaxShockLevel(entered: int): (level: int)
    ensures 1 <= level <= 100
    ensures 1 <= entered <= 100 ==> level == entered
    ensures entered < 1 ==> level == 1
    ensures 100 < entered ==> level == 100
  {
    Policy.Clamp(entered, 1, 100)
  }

  /** The safety-oriented starter profile `run_wizard` writes. */
  function StarterProfile(
    username: string, apikey: string, code: string, sharedSecret: string,
    bindHost: string, bindPort: int, dryRun: bool, allowShock: bool, enteredLevel: int): (c: WizardConfig)
    ensures c.sessionMaxShockLevel == SessionMaxShockLevel(enteredLevel) && 1 <= c.sessionMaxShockLevel <= 100
    ensures c.username == username && c.apikey == apikey && c.code == code && c.sharedSecret == sharedSecret
    ensures c.bindHost == bindHost && c.bindPort == bindPort && c.dryRun == dryRun && c.allowShock == allowShock
    ensures c.maxIntensity == 20 && c.maxDurationMs == 2000 && c.defaultCooldownMs == 1500
    ensures c.name == "CyberpunkBridge"
    ensures |c.eventMappings| == 3
      && c.eventMappings[0].0 == "player_damaged" && c.eventMappings[0].1.mode == "shock"
      && c.eventMappings[1].0 == "player_healed" && c.eventMappings[1].1.mode == "vibrate"
      && c.eventMappings[2].0 == "quest_completed" && c.eventMappings[2].1.mode == "vibrate"
    ensures forall i :: 0 <= i < |c.eventMappings| ==>
      && 1 <= c.eventMappings[i].1.intensity <= c.maxIntensity
      && 100 <= c.eventMappings[i].1.durationMs <= c.maxDurationMs
    ensures forall i, j :: 0 <= i < j < |c.eventMappings| ==> c.eventMappings[i].0 != c.eventMappings[j].0
  {
    WizardConfig(
      bindHost, bindPort, sharedSecret, dryRun, allowShock, 20, 2000, 1500, SessionMaxShockLevel(enteredLevel),
      username, apikey, code, "CyberpunkBridge",
      [("player_damaged", WizardMapping("shock", 8, 400, 2000)),
       ("player_healed", WizardMapping("vibrate", 10, 500, 1500)),
       ("quest_completed", WizardMapping("vibrate", 14, 700, 4000))])
  }

  /** Damage is the only event the starter profile maps to a shock, and its level is in [1, 100]. */
  lemma StarterProfileShocksOnlyOnDamage(
    username: string, apikey: string, code: string, sharedSecret: string,
    bindHost: string, bindPort: int, dryRun: bool, allowShock: bool, enteredLevel: int)
    ensures var c := StarterProfile(username, apikey, code, sharedSecret, bindHost, bindPort, dryRun, allowShock, enteredLevel);
      && 1 <= c.sessionMaxShockLevel <= 100
      && forall i :: 0 <= i < |c.eventMappings| && c.eventMappings[i].1.mode == "shock" ==>
           c.eventMappings[i].0 == "player_damaged"
  {
  }

  /** `str(flag).lower()`. */
  function BoolText(flag: bool): (text: string)
    ensures text == "true" <==> flag
    ensures text == "false" <==> !flag
  {
    if flag then "true" else "false"
  }

  /** The `service` section: its heading and nine fields. */
  function ServiceLines(c: WizardConfig): (lines: seq<string>)
    ensures |lines| == 10 && lines[0] == "service:"
  {
    [ "service:",
      "  bind_host: " + c.bindHost,
      "  bind_port: " + IntToText(c.bindPort),
      "  shared_secret: " + c.sharedSecret,
      "  dry_run: " + BoolText(c.dryRun),
      "  allow_shock: " + BoolText(c.allowShock),
      "  max_intensity: " + IntToText(c.maxIntensity),
      "  max_duration_ms: " + IntToText(c.maxDurationMs),
      "  default_cooldown_ms: " + IntToText(c.defaultCooldownMs),
      "  session_max_shock_level: " + IntToText(c.sessionMaxShockLevel) ]
  }

  /** The `pishock` section: its heading and the four credentials. */
  function PishockLines(c: WizardConfig): (lines: seq<string>)
    ensures |lines| == 5 && lines[0] == "pishock:"
  {
    [ "pishock:",
      "  username: " + c.username,
      "  apikey: " + c.apikey,
      "  code: " + c.code,
      "  name: " + c.name ]
  }

  /** The fixed head of the document: `service`, a blank line, `pishock`, a blank line, `event_mappings:`. */
  function HeaderLines(c: WizardConfig): (lines: seq<string>)
    ensures |lines| == 18
  {
    ServiceLines(c) + [""] + PishockLines(c) + ["", "event_mappings:"]
  }

  /** The five lines of one mapping: its name, then mode, intensity, duration and cooldown. */
  function MappingLines(entry: (string, WizardMapping)): (lines: seq<string>)
    ensures |lines| == 5
  {
    [ "  " + entry.0 + ":",
      "    mode: " + entry.1.mode,
      "    intensity: " + IntToText(entry.1.intensity),
      "    duration_ms: " + IntToText(entry.1.durationMs),
      "    cooldown_ms: " + IntToText(entry.1.cooldownMs) ]
  }

  /** `items` rendered one after another, each by `render`. */
  function Blocks<T>(items: seq<T>, render: T -> seq<string>): seq<string> {
    if items == [] then []
    else Blocks(items[..|items| - 1], render) + render(items[|items| - 1])
  }

  lemma {:induction false} BlocksLength<T>(items: seq<T>, render: T -> seq<string>)
    requires forall x :: |render(x)| == 5
    ensures |Blocks(items, render)| == 5 * |items|
    decreases |items|
  {
    if items != [] {
      BlocksLength(items[..|items| - 1], render);
    }
  }

  lemma BlocksGrow<T>(items: seq<T>, render: T -> seq<string>, i: nat)
    requires i < |items|
    ensures Blocks(items[..i + 1], render) == Blocks(items[..i], render) + render(items[i])
  {
    assert items[..i + 1][..i] == items[..i];
  }

  /**
   * Regrouping a concatenation. Dafny knows this fact; stating it as a lemma
   * keeps `EmitYaml`'s loop body cheap for the solver.
   */
  lemma AppendAssociates(a: seq<string>, b: seq<string>, c: seq<string>)
    ensures a + (b + c) == (a + b) + c
  {
  }

  /** Every line of the document, in order. */
  function DocumentLines(c: WizardConfig): (lines: seq<string>)
    ensures |lines| == 18 + 5 * |c.eventMappings|
  {
    BlocksLength(c.eventMappings, MappingLines);
    HeaderLines(c) + Blocks(c.eventMappings, MappingLines)
  }

  /** `"\n".join(lines)`. */
  function JoinLines(lines: seq<string>): (text: string)
    ensures lines != [] ==> |lines[0]| <= |text| && text[..|lines[0]|] == lines[0]
    ensures lines != [] ==>
      var last := lines[|lines| - 1];
      |last| <= |text| && text[|text| - |last|..] == last
  {
    if lines == [] then ""
    else if |lines| == 1 then lines[0]
    else lines[0] + "\n" + JoinLines(lines[1..])
  }

  /** `_emit_yaml`: the header, then one block per mapping, joined by newlines with one more at the end. */
  method EmitYaml(c: WizardConfig) returns (text: string)
    ensures text == JoinLines(DocumentLines(c)) + "\n"
  {
    var header := HeaderLines(c);
    var lines := header;
    for i := 0 to |c.eventMappings|
      invariant lines == header + Blocks(c.eventMappings[..i], MappingLines)
    {
      var block := MappingLines(c.eventMappings[i]);
      BlocksGrow(c.eventMappings, MappingLines, i);
      AppendAssociates(header, Blocks(c.eventMappings[..i], MappingLines), block);
      lines := lines + block;
    }
    assert c.eventMappings[..|c.eventMappings|] == c.eventMappings;
    assert lines == DocumentLines(c);
    text := JoinLines(lines) + "\n";
  }

  /** Each line followed by a newline. */
  function Terminated(lines: seq<string>): string {
    if lines == [] then "" else lines[0] + "\n" + Terminated(lines[1..])
  }

  lemma {:induction false} JoinThenNewline(lines: seq<string>)
    requires lines != []
    ensures JoinLines(lines) + "\n" == Terminated(lines)
    decreases |lines|
  {
    if |lines| > 1 {
      JoinThenNewline(lines[1..]);
    }
  }

  function FirstNewline(text: string): (i: nat)
    requires '\n' in text
    ensures i < |text| && text[i] == '\n' && '\n' !in text[..i]
  {
    if text[0] == '\n' then 0 else FirstNewline(text[1..]) + 1
  }

  /** Reading newline-terminated lines back: the inverse of `Terminated`. */
  function SplitTerminated(text: string): (lines: seq<string>)
    decreases |text|
  {
    if '\n' !in text then (if text == [] then [] else [text])
    else
      var i := FirstNewline(text);
      [text[..i]] + SplitTerminated(text[i + 1..])
  }

  lemma {:induction false} SplitTerminatedInverse(lines: seq<string>)
    requires forall i :: 0 <= i < |lines| ==> '\n' !in lines[i]
    ensures SplitTerminated(Terminated(lines)) == lines
    decreases |lines|
  {
    if lines != [] {
      var rest := lines[1..];
      assert Terminated(lines) == lines[0] + "\n" + Terminated(rest);
      assert forall i :: 0 <= i < |rest| ==> rest[i] == lines[i + 1];
      SplitFirstLine(lines[0], Terminated(rest));
      SplitTerminatedInverse(rest);
    }
  }

  /** A line without a newline, then a newline, is split off as the first line. */
  lemma SplitFirstLine(line: string, rest: string)
    requires '\n' !in line
    ensures SplitTerminated(line + "\n" + rest) == [line] + SplitTerminated(rest)
  {
    var text := line + "\n" + rest;
    assert text[|line|] == '\n' && text[..|line|] == line;
    FirstNewlineAt(text, |line|);
    assert text[|line| + 1..] == rest;
  }

  lemma FirstNewlineAt(text: string, k: nat)
    requires k < |text| && text[k] == '\n' && '\n' !in text[..k]
    ensures FirstNewline(text) == k
  {
  }

  /** No value of the configuration holds a newline, so every rendered line is one line. */
  predicate SingleLineValues(c: WizardConfig) {
    && '\n' !in c.bindHost && '\n' !in c.sharedSecret
    && '\n' !in c.username && '\n' !in c.apikey && '\n' !in c.code && '\n' !in c.name
    && forall j :: 0 <= j < |c.eventMappings| ==>
         '\n' !in c.eventMappings[j].0 && '\n' !in c.eventMappings[j].1.mode
  }

  predicate NoNewlineIn(lines: seq<string>) {
    forall i :: 0 <= i < |lines| ==> '\n' !in lines[i]
  }

  lemma Joined(a: string, b: string)
    requires '\n' !in a && '\n' !in b
    ensures '\n' !in a + b
  {
  }

  lemma NumberSingleLine(n: int)
    ensures '\n' !in IntToText(n)
  {
  }

  lemma BlocksJoined(a: seq<string>, b: seq<string>)
    requires NoNewlineIn(a) && NoNewlineIn(b)
    ensures NoNewlineIn(a + b)
  {
  }

  lemma MappingLinesSingle(entry: (string, WizardMapping))
    requires '\n' !in entry.0 && '\n' !in entry.1.mode
    ensures NoNewlineIn(MappingLines(entry))
  {
    Joined("  ", entry.0);
    Joined("  " + entry.0, ":");
    Joined("    mode: ", entry.1.mode);
    NumberSingleLine(entry.1.intensity);
    NumberSingleLine(entry.1.durationMs);
    NumberSingleLine(entry.1.cooldownMs);
    Joined("    intensity: ", IntToText(entry.1.intensity));
    Joined("    duration_ms: ", IntToText(entry.1.durationMs));
    Joined("    cooldown_ms: ", IntToText(entry.1.cooldownMs));
  }

  lemma {:induction false} BlocksSingleLines<T>(items: seq<T>, render: T -> seq<string>)
    requires forall j :: 0 <= j < |items| ==> NoNewlineIn(render(items[j]))
    ensures NoNewlineIn(Blocks(items, render))
    decreases |items|
  {
    if items != [] {
      var init := items[..|items| - 1];
      BlocksSingleLines(init, render);
      BlocksJoined(Blocks(init, render), render(items[|items| - 1]));
    }
  }

  lemma ServiceKeysSingleLine()
    ensures '\n' !in "service:" && '\n' !in "  bind_host: " && '\n' !in "  bind_port: "
    ensures '\n' !in "  shared_secret: " && '\n' !in "  dry_run: " && '\n' !in "  allow_shock: "
    ensures '\n' !in "true" && '\n' !in "false"
  {
  }

  lemma LimitKeysSingleLine()
    ensures '\n' !in "  max_intensity: " && '\n' !in "  max_duration_ms: "
    ensures '\n' !in "  default_cooldown_ms: " && '\n' !in "  session_max_shock_level: "
  {
  }

  lemma ServiceSingleLines(c: WizardConfig)
    requires '\n' !in c.bindHost && '\n' !in c.sharedSecret
    ensures NoNewlineIn(ServiceLines(c))
  {
    ServiceKeysSingleLine();
    LimitKeysSingleLine();
    Joined("  bind_host: ", c.bindHost);
    Joined("  shared_secret: ", c.sharedSecret);
    Joined("  dry_run: ", BoolText(c.dryRun));
    Joined("  allow_shock: ", BoolText(c.allowShock));
    NumberLine("  bind_port: ", c.bindPort);
    NumberLine("  max_intensity: ", c.maxIntensity);
    NumberLine("  max_duration_ms: ", c.maxDurationMs);
    NumberLine("  default_cooldown_ms: ", c.defaultCooldownMs);
    NumberLine("  session_max_shock_level: ", c.sessionMaxShockLevel);
  }

  lemma NumberLine(key: string, n: int)
    requires '\n' !in key
    ensures '\n' !in key + IntToText(n)
  {
    NumberSingleLine(n);
    Joined(key, IntToText(n));
  }

  lemma PishockSingleLines(c: WizardConfig)
    requires '\n' !in c.username && '\n' !in c.apikey && '\n' !in c.code && '\n' !in c.name
    ensures NoNewlineIn(PishockLines(c))
  {
  }

  lemma HeaderSingleLines(c: WizardConfig)
    requires SingleLineValues(c)
    ensures NoNewlineIn(HeaderLines(c))
  {
    ServiceSingleLines(c);
    PishockSingleLines(c);
    BlocksJoined(ServiceLines(c), [""]);
    BlocksJoined(ServiceLines(c) + [""], PishockLines(c));
    BlocksJoined(ServiceLines(c) + [""] + PishockLines(c), ["", "event_mappings:"]);
  }

  lemma NoNewlineInLines(c: WizardConfig)
    requires SingleLineValues(c)
    ensures NoNewlineIn(DocumentLines(c))
  {
    HeaderSingleLines(c);
    forall j | 0 <= j < |c.eventMappings| ensures NoNewlineIn(MappingLines(c.eventMappings[j])) {
      MappingLinesSingle(c.eventMappings[j]);
    }
    BlocksSingleLines(c.eventMappings, MappingLines);
    BlocksJoined(HeaderLines(c), Blocks(c.eventMappings, MappingLines));
  }

  /**
   * The rendered text splits back into exactly the document's lines: one
   * line per entry, nothing merged, nothing lost.
   */
  lemma {:induction false} EmitYamlLines(c: WizardConfig)
    requires SingleLineValues(c)
    ensures SplitTerminated(JoinLines(DocumentLines(c)) + "\n") == DocumentLines(c)
  {
    JoinThenNewline(DocumentLines(c));
    NoNewlineInLines(c);
    SplitTerminatedInverse(DocumentLines(c));
  }

  /**
   * The sections come in a fixed order: `service` first, then a blank line
   * and `pishock`, then a blank line and `event_mappings`; the flags are
   * written in lower case.
   */
  lemma SectionLayout(c: WizardConfig)
    ensures var lines := DocumentLines(c);
      && lines[0] == "service:"
      && lines[10] == "" && lines[11] == "pishock:"
      && lines[16] == "" && lines[17] == "event_mappings:"
      && (lines[4] == "  dry_run: true" <==> c.dryRun)
      && (lines[5] == "  allow_shock: true" <==> c.allowShock)
  {
    HeaderLayout(c);
    HeaderLineAt(c, 0);
    HeaderLineAt(c, 4);
    HeaderLineAt(c, 5);
    HeaderLineAt(c, 10);
    HeaderLineAt(c, 11);
    HeaderLineAt(c, 16);
    HeaderLineAt(c, 17);
  }

  lemma HeaderLayout(c: WizardConfig)
    ensures var lines := HeaderLines(c);
      && lines[0] == "service:"
      && lines[10] == "" && lines[11] == "pishock:"
      && lines[16] == "" && lines[17] == "event_mappings:"
      && (lines[4] == "  dry_run: true" <==> c.dryRun)
      && (lines[5] == "  allow_shock: true" <==> c.allowShock)
  {
    var service := ServiceLines(c);
    assert HeaderLines(c)[4] == service[4] == "  dry_run: " + BoolText(c.dryRun);
    assert HeaderLines(c)[5] == service[5] == "  allow_shock: " + BoolText(c.allowShock);
    FlagLine("  dry_run: ", c.dryRun);
    FlagLine("  allow_shock: ", c.allowShock);
  }

  /** A flag line reads `true` exactly when the flag is set. */
  lemma FlagLine(prefix: string, flag: bool)
    ensures prefix + BoolText(flag) == prefix + "true" <==> flag
  {
    if prefix + BoolText(flag) == prefix + "true" {
      assert BoolText(flag) == (prefix + BoolText(flag))[|prefix|..];
    }
  }

  lemma HeaderLineAt(c: WizardConfig, k: nat)
    requires k < 18
    ensures DocumentLines(c)[k] == HeaderLines(c)[k]
  {
    BlocksLength(c.eventMappings, MappingLines);
    assert (HeaderLines(c) + Blocks(c.eventMappings, MappingLines))[k] == HeaderLines(c)[k];
  }

  /** The service section's value lines: host, port, secret, then the caps, cooldown and level. */
  lemma ServiceValueLines(c: WizardConfig)
    ensures var lines := DocumentLines(c);
      && lines[1] == "  bind_host: " + c.bindHost
      && lines[2] == "  bind_port: " + IntToText(c.bindPort)
      && lines[3] == "  shared_secret: " + c.sharedSecret
      && lines[6] == "  max_intensity: " + IntToText(c.maxIntensity)
      && lines[7] == "  max_duration_ms: " + IntToText(c.maxDurationMs)
      && lines[8] == "  default_cooldown_ms: " + IntToText(c.defaultCooldownMs)
      && lines[9] == "  session_max_shock_level: " + IntToText(c.sessionMaxShockLevel)
  {
    ServiceLineFields(c);
    HeaderSectionAt(c, 1);
    HeaderSectionAt(c, 2);
    HeaderSectionAt(c, 3);
    HeaderSectionAt(c, 6);
    HeaderSectionAt(c, 7);
    HeaderSectionAt(c, 8);
    HeaderSectionAt(c, 9);
  }

  /** The pishock section's value lines: the four credentials, in order. */
  lemma PishockValueLines(c: WizardConfig)
    ensures var lines := DocumentLines(c);
      && lines[12] == "  username: " + c.username
      && lines[13] == "  apikey: " + c.apikey
      && lines[14] == "  code: " + c.code
      && lines[15] == "  name: " + c.name
  {
    PishockLineFields(c);
    HeaderSectionAt(c, 12);
    HeaderSectionAt(c, 13);
    HeaderSectionAt(c, 14);
    HeaderSectionAt(c, 15);
  }

  /** The level written for the starter profile is the entered level, clamped into [1, 100]. */
  lemma StarterProfileWritesClampedLevel(
    username: string, apikey: string, code: string, sharedSecret: string,
    bindHost: string, bindPort: int, dryRun: bool, allowShock: bool, enteredLevel: int)
    ensures var c := StarterProfile(username, apikey, code, sharedSecret, bindHost, bindPort, dryRun, allowShock, enteredLevel);
      DocumentLines(c)[9] == "  session_max_shock_level: " + IntToText(SessionMaxShockLevel(enteredLevel))
  {
    var c := StarterProfile(username, apikey, code, sharedSecret, bindHost, bindPort, dryRun, allowShock, enteredLevel);
    ServiceValueLines(c);
  }

  lemma ServiceLineFields(c: WizardConfig)
    ensures var service := ServiceLines(c);
      && service[1] == "  bind_host: " + c.bindHost
      && service[2] == "  bind_port: " + IntToText(c.bindPort)
      && service[3] == "  shared_secret: " + c.sharedSecret
      && service[6] == "  max_intensity: " + IntToText(c.maxIntensity)
      && service[7] == "  max_duration_ms: " + IntToText(c.maxDurationMs)
      && service[8] == "  default_cooldown_ms: " + IntToText(c.defaultCooldownMs)
      && service[9] == "  session_max_shock_level: " + IntToText(c.sessionMaxShockLevel)
  {
  }

  lemma PishockLineFields(c: WizardConfig)
    ensures var pishock := PishockLines(c);
      && pishock[1] == "  username: " + c.username
      && pishock[2] == "  apikey: " + c.apikey
      && pishock[3] == "  code: " + c.code
      && pishock[4] == "  name: " + c.name
  {
  }

  /** Document line `k` of the head is line `k` of `service`, or line `k - 11` of `pishock`. */
  lemma HeaderSectionAt(c: WizardConfig, k: nat)
    requires k < 10 || 11 <= k < 16
    ensures k < 10 ==> DocumentLines(c)[k] == ServiceLines(c)[k]
    ensures 11 <= k ==> DocumentLines(c)[k] == PishockLines(c)[k - 11]
  {
    HeaderLineAt(c, k);
    var service, pishock := ServiceLines(c), PishockLines(c);
    var header := service + [""] + pishock + ["", "event_mappings:"];
    assert HeaderLines(c) == header;
    if k < 10 {
      assert header[k] == service[k];
    } else {
      assert header[k] == pishock[k - 11];
    }
  }

  lemma {:induction false} BlockAt<T>(items: seq<T>, render: T -> seq<string>, j: nat, k: nat)
    requires forall x :: |render(x)| == 5
    requires j < |items| && k < 5
    ensures |Blocks(items, render)| == 5 * |items|
    ensures Blocks(items, render)[5 * j + k] == render(items[j])[k]
    decreases |items|
  {
    BlocksLength(items, render);
    var init := items[..|items| - 1];
    var front := Blocks(init, render);
    var back := render(items[|items| - 1]);
    BlocksLength(init, render);
    if j < |init| {
      BlockAt(init, render, j, k);
      assert init[j] == items[j];
      assert (front + back)[5 * j + k] == front[5 * j + k];
    } else {
      assert (front + back)[5 * j + k] == back[k];
    }
  }

  /**
   * Mapping `j` of the table is rendered as lines `18 + 5j` to `22 + 5j`: its
   * name, mode, intensity, duration and cooldown, in table order and with no
   * other line (no `target`) among them.
   */
  lemma MappingRenderedInOrder(c: WizardConfig, j: nat)
    requires j < |c.eventMappings|
    ensures var lines := DocumentLines(c);
      var e := c.eventMappings[j];
      && lines[18 + 5 * j] == "  " + e.0 + ":"
      && lines[19 + 5 * j] == "    mode: " + e.1.mode
      && lines[20 + 5 * j] == "    intensity: " + IntToText(e.1.intensity)
      && lines[21 + 5 * j] == "    duration_ms: " + IntToText(e.1.durationMs)
      && lines[22 + 5 * j] == "    cooldown_ms: " + IntToText(e.1.cooldownMs)
  {
    MappingLineFields(c.eventMappings[j]);
    DocumentLineAt(c, j, 0, 18 + 5 * j);
    DocumentLineAt(c, j, 1, 19 + 5 * j);
    DocumentLineAt(c, j, 2, 20 + 5 * j);
    DocumentLineAt(c, j, 3, 21 + 5 * j);
    DocumentLineAt(c, j, 4, 22 + 5 * j);
  }

  lemma MappingLineFields(e: (string, WizardMapping))
    ensures var m := MappingLines(e);
      && m[0] == "  " + e.0 + ":"
      && m[1] == "    mode: " + e.1.mode
      && m[2] == "    intensity: " + IntToText(e.1.intensity)
      && m[3] == "    duration_ms: " + IntToText(e.1.durationMs)
      && m[4] == "    cooldown_ms: " + IntToText(e.1.cooldownMs)
  {
  }

  /** Line `i` of the document is line `k` of mapping `j`'s block. */
  lemma DocumentLineAt(c: WizardConfig, j: nat, k: nat, i: nat)
    requires j < |c.eventMappings| && k < 5 && i == 18 + 5 * j + k
    ensures i < |DocumentLines(c)| && DocumentLines(c)[i] == MappingLines(c.eventMappings[j])[k]
  {
    HeadedBlockAt(HeaderLines(c), c.eventMappings, MappingLines, j, k, i);
  }

  /** After a header, line `i` falls in the block of item `j`, at its line `k`. */
  lemma HeadedBlockAt<T>(header: seq<string>, items: seq<T>, render: T -> seq<string>, j: nat, k: nat, i: nat)
    requires forall x :: |render(x)| == 5
    requires j < |items| && k < 5 && i == |header| + 5 * j + k
    ensures i < |header + Blocks(items, render)|
    ensures (header + Blocks(items, render))[i] == render(items[j])[k]
  {
    BlockAt(items, render, j, k);
    assert (header + Blocks(items, render))[i] == Blocks(items, render)[i - |header|];
  }

  lemma LastLineNotBlank(c: WizardConfig)
    ensures var lines := DocumentLines(c);
      lines[|lines| - 1] != "" && lines[|lines| - 1][|lines[|lines| - 1]| - 1] != '\n'
  {
    var lines := DocumentLines(c);
    var n := |c.eventMappings|;
    if n == 0 {
      HeaderLayout(c);
      HeaderLineAt(c, 17);
      LastCharAfterPrefix("event_mappings", ":");
    } else {
      var e := c.eventMappings[n - 1];
      DocumentLineAt(c, n - 1, 4, |lines| - 1);
      assert lines[|lines| - 1] == "    cooldown_ms: " + IntToText(e.1.cooldownMs);
      LastCharAfterPrefix("    cooldown_ms: ", IntToText(e.1.cooldownMs));
    }
  }

  lemma LastCharAfterPrefix(prefix: string, t: string)
    requires t != [] && t[|t| - 1] != '\n'
    ensures var s := prefix + t; s != [] && s[|s| - 1] != '\n'
  {
    var s := prefix + t;
    assert s[|s| - 1] == t[|t| - 1];
  }

  /** The document ends in exactly one newline. */
  lemma ExactlyOneTrailingNewline(c: WizardConfig)
    ensures var text := JoinLines(DocumentLines(c)) + "\n";
      |text| >= 2 && text[|text| - 1] == '\n' && text[|text| - 2] != '\n'
  {
    LastLineNotBlank(c);
    JoinedEndsLikeLastLine(DocumentLines(c));
  }

  /** Joined lines end with the last line's final character. */
  lemma JoinedEndsLikeLastLine(lines: seq<string>)
    requires lines != [] && lines[|lines| - 1] != ""
    ensures var joined := JoinLines(lines); var last := lines[|lines| - 1];
      joined != [] && joined[|joined| - 1] == last[|last| - 1]
  {
    var joined := JoinLines(lines);
    var last := lines[|lines| - 1];
    assert joined[|joined| - |last|..][|last| - 1] == last[|last| - 1];
  }
}

=== FILE: values.dfy ===
/**
 * The dynamically typed values the middleware receives: a JSON event body and
 * the YAML configuration document, together with the Python operations the core
 * applies to them (truthiness, `dict.get`, subscripting, `int()` and `float()`)
 * and the exceptions those operations raise.
 */
module Values {
  import opened Wrappers
  import PyText

  /** A parsed JSON or YAML value: `None`, bool, int, float, str, list, dict. */
  datatype Value =
    | VNull
    | VBool(b: bool)
    | VInt(i: int)
    | VReal(r: real)
    | VStr(s: string)
    | VSeq(items: seq<Value>)
    | VDict(fields: map<string, Value>)

  /** The Python exceptions the core can raise besides its own policy errors. */
  datatype PyError = KeyError(key: string) | TypeError | ValueError | AttributeError | OverflowError

  /**
   * 2^1024 - 2^970: converting an int to a double rounds half to even to 53
   * bits, and from this magnitude on the result would pass the largest double
   * (2^1024 - 2^971), so `float(n)` raises `OverflowError`.
   */
  const FloatOverflowBound: int := 0xFFFF_FFFF_FFFF_FC00_0000_0000_0000_0000_0000_0000_0000_0000_0000_0000_0000_0000_0000_0000_0000_0000_0000_0000_0000_0000_0000_0000_0000_0000_0000_0000_0000_0000_0000_0000_0000_0000_0000_0000_0000_0000_0000_0000_0000_0000_0000_0000_0000_0000_0000_0000_0000_0000_0000_0000_0000_0000_0000_0000_0000_0000_0000_0000_0000_0000

  /** The ints `float()` converts without `OverflowError`. */
  predicate FitsFloat(n: int) {
    -FloatOverflowBound < n < FloatOverflowBound
  }

  /** Python truthiness: `bool(v)`. */
  predicate Truthy(v: Value): (b: bool)
    ensures v.VNull? ==> !b
    ensures v.VBool? ==> b == v.b
    ensures v.VInt? ==> (b <==> v.i != 0)
    ensures v.VReal? ==> (b <==> v.r != 0.0)
    ensures v.VStr? || v.VSeq? || v.VDict? ==> (b <==> v != VStr("") && v != VSeq([]) && v != VDict(map[]))
  {
    match v
    case VNull => false
    case VBool(b) => b
    case VInt(i) => i != 0
    case VReal(r) => r != 0.0
    case VStr(s) => s != ""
    case VSeq(items) => |items| > 0
    case VDict(fields) => |fields| > 0
  }

  /** Lists and dicts cannot be dictionary keys (hashing them raises `TypeError`). */
  predicate Hashable(v: Value) {
    !v.VSeq? && !v.VDict?
  }

  /** `d.get(key, default)`. */
  function Get(d: map<string, Value>, key: string, default: Value): (r: Value)
    ensures key in d ==> r == d[key]
    ensures key !in d ==> r == default
  {
    if key in d then d[key] else default
  }

  /** `v[key]` for a string key: only a dict can answer; a missing key is a `KeyError`. */
  function Subscript(v: Value, key: string): (r: Result<Value, PyError>)
    ensures r.Success? <==> v.VDict? && key in v.fields
    ensures r.Success? ==> r.value == v.fields[key]
    ensures v.VDict? && key !in v.fields ==> r == Failure(KeyError(key))
    ensures !v.VDict? ==> r == Failure(TypeError)
  {
    match v
    case VDict(fields) => if key in fields then Success(fields[key]) else Failure(KeyError(key))
    case _ => Failure(TypeError)
  }

  /** `int(x)` for a float: rounds toward zero. */
  function Truncate(x: real): (n: int)
    ensures 0.0 <= x ==> n as real <= x < n as real + 1.0
    ensures x < 0.0 ==> n as real - 1.0 < x <= n as real
  {
    if x >= 0.0 then x.Floor else -((-x).Floor)
  }

  /** Python's `int(v)`. */
  function ToInt(v: Value): (r: Result<int, PyError>)
    ensures v.VInt? ==> r == Success(v.i)
    ensures v.VBool? ==> r == Success(if v.b then 1 else 0)
    ensures v.VReal? ==> r == Success(Truncate(v.r))
    ensures v.VStr? ==> (r.Success? <==> PyText.ParseInt(v.s).Some?)
    ensures v.VStr? && r.Failure? ==> r.error == ValueError
    ensures v.VNull? || v.VSeq? || v.VDict? ==> r == Failure(TypeError)
  {
    match v
    case VNull => Failure(TypeError)
    case VBool(b) => Success(if b then 1 else 0)
    case VInt(i) => Success(i)
    case VReal(x) => Success(Truncate(x))
    case VStr(s) =>
      (match PyText.ParseInt(s)
       case Some(n) => Success(n)
       case None => Failure(ValueError))
    case VSeq(_) => Failure(TypeError)
    case VDict(_) => Failure(TypeError)
  }

  /**
   * Python's `float(v)`. Text is read as a number when it is integer text in the
   * sense of `int()` (see README, "Left out").
   */
  function ToFloat(v: Value): (r: Result<real, PyError>)
    ensures v.VInt? && FitsFloat(v.i) ==> r == Success(v.i as real)
    ensures v.VInt? && !FitsFloat(v.i) ==> r == Failure(OverflowError)
    ensures v.VBool? ==> r == Success(if v.b then 1.0 else 0.0)
    ensures v.VReal? ==> r == Success(v.r)
    ensures v.VNull? || v.VSeq? || v.VDict? ==> r == Failure(TypeError)
    ensures v.VStr? ==> (r.Success? <==> PyText.ParseInt(v.s).Some?)
    ensures v.VStr? && r.Failure? ==> r.error == ValueError
  {
    match v
    case VNull => Failure(TypeError)
    case VBool(b) => Success(if b then 1.0 else 0.0)
    case VInt(i) => if FitsFloat(i) then Success(i as real) else Failure(OverflowError)
    case VReal(x) => Success(x)
    case VStr(s) =>
      (match PyText.ParseInt(s)
       case Some(n) => Success(n as real)
       case None => Failure(ValueError))
    case VSeq(_) => Failure(TypeError)
    case VDict(_) => Failure(TypeError)
  }
}

=== FILE: wrappers.dfy ===
/** Option and Result: the two failure-carrying shapes the rest of the model uses. */
module Wrappers {

  datatype Option<+T> = None | Some(value: T)

  /** A value, or the error an operation raised instead of producing one. */
  datatype Result<+T, +E> = Success(value: T) | Failure(error: E) {

    predicate IsFailure() {
      Failure?
    }

    function PropagateFailure<U>(): Result<U, E>
      requires Failure?
    {
      Failure(error)
    }

    function Extract(): T
      requires Success?
    {
      value
    }
  }
}
